=== FILE: README.md ===
# Memory Restorer client, modelled in Dafny

Memory Restorer is a single-page web client. A user picks an old photograph, optionally a second photograph of a relative, and an instruction. The client encodes the photographs and sends them to a remote image-generation service. It then shows the restored image next to the original, and the user can refine it with further instructions or download it. This project models the client's own logic as pure functions over immutable state, with contracts and lemmas about them:

- **`utils/fileUtils.ts`** — the two `data:` URL parsers (module `FileUtils`).
  - `fileToBase64` is the `FileReader` `onload` step. It splits at commas and takes `header.split(':')[1].split(';')[0]`.
  - `dataUrlToBase64File` uses the same split. It takes the MIME type from the first group of the lazy regular expression `/:(.*?);/` and falls back to `application/octet-stream`.
  - The regular expression is modelled with ECMAScript semantics: a leftmost match, a lazy group, and `.` that stops at line terminators.
- **`App.tsx`** — the page controller (module `App`).
  - The nine state variables, plus the page's object-URL allocator.
  - The restore handler: no photo, the "abish" easter egg, the normal path and its asynchronous completion.
  - The tune handler, the reset, and the uploader callbacks.
  - Which screen is rendered, how many loading overlays are mounted, whether the error banner shows, and the restore button's disabled state and label.
- **`components/ImageUploader.tsx`** — one upload slot (module `ImageUploader`).
  - The file-change handler with its `image/` filter.
  - The drag handlers.
  - The preview-revoking effect cleanup.
  - The input id slug `title.replace(/\s+/g, '-')`.
- **`components/ResultDisplay.tsx`** — the refine form's submit guard, the disabled conditions, and the timestamped download name (module `ResultDisplay`).
- **`components/Loader.tsx`** — the rotating loading message: the successor function over the seven messages, and the message shown first (module `Loader`).

Three support modules hold the JavaScript and browser semantics the client relies on:

- `JsValues`: nullable values, thrown values, `instanceof Error ? message : fallback`, and string truthiness.
- `JsStrings`: `indexOf`, `split`/`join`, `trim`, `\s`, `toLowerCase`, `startsWith`, `includes`, and `String(n)`.
- `Browser`: `File` and the object-URL allocator.

Asynchronous work is modelled as an explicit event carrying its outcome. This covers the `FileReader` events, the service's result or error, the 1500 ms easter-egg timer and the 2500 ms loader interval. A run of events is folded over the state. The object-URL discipline is stated as an ownership invariant: an owner's allocator holds exactly the preview URL the owner shows. Both the page and each upload slot are proved to keep this invariant over every run of events.

Behaviours of the code worth stating plainly (the model follows the code):

- **A header without `:` never settles.** `fileToBase64` on such a header throws inside the `onload` callback. The promise never settles, so it does not reject as an encoding error would. The page then stays in its loading state (`FileToBase64`, `RestoreComplete`).
- **The two parsers can return different MIME types.** `fileToBase64`'s MIME type stops at a second `:` and the regular expression's does not, so for the header `a:b:c;x` the two give different answers (`FileUtils.SecondColonDivergence`).
- **The decoder also rejects empty fields.** Besides a missing comma, it rejects an empty header and an empty payload. Text after a second comma is dropped.
- **An encoding failure keeps its own message.** A restore whose file read yields a malformed URL shows the `Error`'s own text, "Invalid file format", not a generic message (`App.RestoreComplete`). A tune whose result cannot be decoded stores "Invalid data URL format" in the error field, but the page stays on the result screen, where no banner is rendered (`App.TuneBegin`, `App.TuneErrorNeverShown`).
- **A failed restore can show nothing.** The error text of a failed restore is whatever message the thrown `Error` carries, which may be empty, and an empty error is not displayed (`App.RestoreFailureShown`).
- **A failed tune shows no error while its result is on screen.** The error banner renders only on the upload screen, and a tune that fails from the result screen keeps the page there (`App.TuneErrorNeverShown`). The "Restore Another Photo" button stays enabled while a tune runs, though. If the page is reset before the tune fails, the error does appear on the upload screen (`App.TuneErrorShownAfterReset`).
- **A superseded preview is revoked twice.** The upload slot revokes it in the handler and again in the effect cleanup. The second revoke is harmless (`ImageUploader.Settle`, `ImageUploader.SecondRevokeHarmless`, `ImageUploader.ChooseSettles`).
- **Two loading overlays show during a restore.** A normal restore mounts both the page-level overlay and the one in the non-easter-egg branch (`App.TwoLoadersWhileRestoring`).
- **The highlight is set on `dragover`.** The drop-zone highlight is set on `dragover`, not on `dragenter`.

## Model

| member | source | states |
|---|---|---|
| JsValues.MessageOr | App.tsx:59-61 | the caught value's message when it is an `Error`, the handler's fallback text for anything else |
| JsStrings.IndexOf | components/Loader.tsx:19 | -1 exactly when the value is absent; otherwise a position holding it with no earlier occurrence |
| JsStrings.Split | utils/fileUtils.ts:25 | at least one piece, and no piece contains the separator |
| JsStrings.JoinSplit | utils/fileUtils.ts:25 | joining the pieces of a split with the separator gives back the original string |
| JsStrings.SplitJoin | utils/fileUtils.ts:25 | splitting a join of separator-free pieces gives back the pieces |
| JsStrings.SplitPieces | utils/fileUtils.ts:13 | the first piece is the text before the first separator, the second the text between the first and second separators, and there is one piece exactly when the separator is absent |
| JsStrings.Before | utils/fileUtils.ts:17 | a separator-free prefix that ends at the first separator or at the end of the string |
| JsStrings.TrimStart | components/ImageUploader.tsx:54 | a suffix whose removed prefix is all whitespace and that does not itself start with whitespace |
| JsStrings.TrimEnd | components/ResultDisplay.tsx:17 | a prefix whose removed suffix is all whitespace and that does not itself end with whitespace |
| JsStrings.Trim | components/ResultDisplay.tsx:17 | a contiguous piece of the input with only whitespace before and after it, empty exactly when the input is all whitespace, otherwise starting and ending with non-whitespace |
| JsStrings.ToLowerCase | App.tsx:30 | same length, every ASCII capital lowered and every other character kept |
| JsStrings.NatToDecimal | components/ResultDisplay.tsx:76 | a non-empty digit string without leading zeros whose decimal value is the number |
| Browser.CreateObjectUrl | components/ImageUploader.tsx:21 | a URL not live before, now live for the file, with every other URL unchanged |
| Browser.RevokeObjectUrl | components/ImageUploader.tsx:19 | the URL is no longer live, every other URL is unchanged, and revoking a dead URL changes nothing |
| Browser.Release | App.tsx:92-94 | exactly the held preview, if any, stops being live; every other URL keeps its file |
| Browser.ReleaseIdempotent | components/ImageUploader.tsx:41-47 | releasing the same preview twice is the same as releasing it once |
| Browser.Replace | App.tsx:54-57 | the prior preview is dead and a fresh URL is live for the new file; nothing else changes |
| Browser.ReplaceKeepsOwnership | App.tsx:54-57 | an owner holding exactly its prior preview holds exactly the new one afterwards, so the old URL is not leaked |
| FileUtils.SplitDataUrl | utils/fileUtils.ts:25-28 | the guard rejects exactly a URL with no comma, an empty header or an empty payload; otherwise the header is the text before the first comma and the payload the unaltered text up to the next comma |
| FileUtils.SplitDataUrlOf | utils/fileUtils.ts:25 | a comma-free header, a comma and a rest split into that header and the rest up to its first comma |
| FileUtils.LazyGroupEnd | utils/fileUtils.ts:29 | the lazy group ends at the first `;` from its start, and never crosses a line terminator |
| FileUtils.MatchFrom | utils/fileUtils.ts:29 | the group of the leftmost match, if any, is free of `;` and of line terminators and sits between a `:` and a `;` of the header at or after the search start |
| FileUtils.RegexMimePlain | utils/fileUtils.ts:29 | on a header without line terminators, the regular expression finds the text between the first `:` and the next `;`, and nothing when there is no such `;` |
| FileUtils.RegexSkipsLineBreak | utils/fileUtils.ts:29 | a line break between `:` and `;` makes the search move on to a later colon |
| FileUtils.DataUrlToBase64File | utils/fileUtils.ts:24-33 | throws "Invalid data URL format" exactly on a malformed URL; otherwise returns the comma-delimited payload unaltered |
| FileUtils.DecodeMimeType | utils/fileUtils.ts:29-30 | the decoded MIME type is the text between the first `:` and the next `;`, and `application/octet-stream` (not an error) when the header has no such pair |
| FileUtils.ColonChainMime | utils/fileUtils.ts:17 | undefined (the chained split throws) exactly when the header has no `:`; otherwise the text after the first `:` cut at the next `:` and then at the next `;` |
| FileUtils.FileToBase64 | utils/fileUtils.ts:6-22 | a read error rejects with the non-`Error` event; a malformed URL rejects with "Invalid file format"; a header without `:` never settles; otherwise it resolves with the payload |
| FileUtils.FileMimeType | utils/fileUtils.ts:17 | the resolved MIME type is the longest run after the header's first `:` that contains neither `:` nor `;` |
| FileUtils.ParsersShareTheSplit | utils/fileUtils.ts:13-16 | the reader step rejects exactly where the decoder throws, and where both succeed they agree on the payload |
| FileUtils.DecodeDropsAfterSecondComma | utils/fileUtils.ts:25 | anything after a second comma does not affect the decoder's outcome |
| FileUtils.ReaderFields | utils/fileUtils.ts:13 | a reader-style `data:<m>;base64,<d>` URL splits into its header and payload |
| FileUtils.ReaderHeaderRegex | utils/fileUtils.ts:29 | the regular expression finds `m` in a reader-style header |
| FileUtils.ReaderHeaderColonChain | utils/fileUtils.ts:17 | the colon chain finds `m` in a reader-style header when `m` has no `:` |
| FileUtils.DecodeRoundTrip | utils/fileUtils.ts:24-33 | decoding a reader-style URL gives back its MIME type and payload |
| FileUtils.FileRoundTrip | utils/fileUtils.ts:10-19 | the reader step gives back the MIME type and payload of a reader-style URL and agrees with the decoder |
| FileUtils.FileMimeIsPrefixOfDecoderMime | utils/fileUtils.ts:17 | where both parsers find a MIME type, the reader step's is a prefix of the decoder's |
| FileUtils.SecondColonDivergence | utils/fileUtils.ts:29 | on the header `a:b:c;x` the decoder yields `b:c` and the reader step yields `b` |
| Loader.Successor | components/Loader.tsx:19-21 | the next message is in the list, and an unknown message is followed by the first one |
| Loader.Next | components/Loader.tsx:18-22 | the interval's update always shows one of the seven messages, and an unknown one is replaced by the initial message |
| Loader.MessagesDistinct | components/Loader.tsx:3-11 | no message appears twice, so `indexOf` finds each at its own place |
| Loader.SuccessorAt | components/Loader.tsx:19-21 | in a list without repeats, each entry's successor is the next entry, and the last wraps to the first |
| Loader.Ticks | components/Loader.tsx:17-23 | after at least one tick the overlay always shows one of the messages |
| Loader.TicksFromIndex | components/Loader.tsx:17-23 | n ticks from entry k reach the entry n steps further round the cycle |
| Loader.NextFollowsList | components/Loader.tsx:19-21 | each message is followed by the next, and the last by the first |
| Loader.TicksAround | components/Loader.tsx:14-23 | n ticks after showing message k the overlay shows message (k + n) mod 7, so from the initial message it shows message n mod 7 |
| Loader.FullCycle | components/Loader.tsx:16-23 | seven ticks return to the same message |
| ImageUploader.FirstFile | components/ImageUploader.tsx:15 | a file exactly when the list is present and non-empty, and then the first one |
| ImageUploader.HandleFileChange | components/ImageUploader.tsx:14-23 | the owner is notified exactly for a first file whose type starts with `image/`; then the old preview is revoked and a URL never handed out before shows the file; otherwise nothing changes |
| ImageUploader.DragOver | components/ImageUploader.tsx:25-28 | the zone is highlighted and nothing else changes |
| ImageUploader.DragLeave | components/ImageUploader.tsx:30-33 | the highlight is removed and nothing else changes |
| ImageUploader.Drop | components/ImageUploader.tsx:35-39 | the highlight is removed and the same files are accepted as through the input |
| ImageUploader.DropIsLeaveThenChoose | components/ImageUploader.tsx:35-39 | a drop has the preview, URLs and notification of choosing the same files through the input |
| ImageUploader.Cleanup | components/ImageUploader.tsx:41-47 | exactly the given preview stops being live, every other URL keeps its file, and the slot's view is unchanged |
| ImageUploader.Settle | components/ImageUploader.tsx:41-47 | when the preview changed, the effect cleanup revokes exactly the superseded preview, every other URL keeps its file and the counter is kept; the new preview and highlight are kept, and nothing happens when the preview did not change |
| ImageUploader.ChooseSettles | components/ImageUploader.tsx:18-47 | choosing an accepted file ends, after the effect cleanup, in exactly the handler's slot |
| ImageUploader.Step | components/ImageUploader.tsx:14-47 | every event, with its effect cleanup, keeps the slot holding exactly the URL it shows |
| ImageUploader.RunOwns | components/ImageUploader.tsx:11-47 | the slot holds exactly the URL it shows after any sequence of events |
| ImageUploader.SecondRevokeHarmless | components/ImageUploader.tsx:18-47 | the effect cleanup after a replacement changes nothing, since the handler already revoked the URL |
| ImageUploader.Unmount | components/ImageUploader.tsx:41-47 | unmounting a slot that owns its preview leaves none of its URLs live |
| ImageUploader.UnmountReleasesAll | components/ImageUploader.tsx:41-47 | after any events from mount, unmounting leaves none of the slot's URLs live |
| ImageUploader.ReplaceWhitespaceRuns | components/ImageUploader.tsx:54 | the result contains no whitespace when the replacement is not whitespace, and is no longer than the title |
| ImageUploader.InputId | components/ImageUploader.tsx:72 | the id starts with `file-upload-` and contains no whitespace after it |
| ImageUploader.NoWhitespaceUnchanged | components/ImageUploader.tsx:54 | a title without whitespace is kept unchanged |
| ImageUploader.RunByRun | components/ImageUploader.tsx:54 | each maximal whitespace run becomes exactly one replacement character |
| ImageUploader.TwoWordInputId | components/ImageUploader.tsx:72 | a title of two whitespace-free words separated by one space gets the words joined by `-` |
| ImageUploader.InputIdFirst | components/ImageUploader.tsx:72 | a title not starting with whitespace keeps its first character right after the prefix |
| ImageUploader.PrimaryInputId | components/ImageUploader.tsx:72 | the primary slot's id is `file-upload-Primary-Photo` |
| ImageUploader.UploaderIdsDiffer | App.tsx:161-172 | the two slots the page renders get different input ids |
| ResultDisplay.Submit | components/ResultDisplay.tsx:15-21 | the instruction is forwarded, untrimmed, exactly when it is not blank and nothing is loading, and the field is then cleared; otherwise the field is kept |
| ResultDisplay.NoDoubleSubmit | components/ResultDisplay.tsx:17-19 | a second submit right after a forwarding one forwards nothing |
| ResultDisplay.MountedFormForwardsNothing | components/ResultDisplay.tsx:13-19 | the freshly mounted form's empty field forwards nothing and stays empty |
| ResultDisplay.BlockedSubmitStable | components/ResultDisplay.tsx:17-19 | repeating a blocked submit changes nothing |
| ResultDisplay.DownloadName | components/ResultDisplay.tsx:76 | the name starts with `restored-memory-`, ends with `.png`, and has something between them |
| ResultDisplay.DownloadNameStamp | components/ResultDisplay.tsx:76 | the time can be read back from the name, and different times give different names |
| ResultDisplay.Render | components/ResultDisplay.tsx:59-76 | the text field is disabled exactly while loading; the button is disabled exactly for a blank instruction or while loading; the link offers the result |
| ResultDisplay.SubmitEnabledIffForwards | components/ResultDisplay.tsx:17-64 | the refine button is enabled exactly when submitting would forward the instruction |
| App.RestoreBegin | App.tsx:23-45 | without a primary photo only the error is set; an "abish" name (any case) only starts loading; otherwise loading starts with the error and result cleared and the photos and instruction captured |
| App.AbishComplete | App.tsx:32-39 | the timer revokes the old preview, shows a URL never handed out before for the photo, enters the easter-egg mode and stops loading, keeping ownership |
| App.RestoreFailed | App.tsx:59-64 | the error is the thrown message or the fallback, and loading stops; nothing else changes |
| App.RestoreCall | App.tsx:51-64 | the service gets both payloads and the instruction; success stores the result and replaces the preview with a URL never handed out before, changing nothing else; failure goes to the `catch` |
| App.RestoreComplete | App.tsx:47-64 | the service is called exactly when every needed read resolves; a rejected primary or secondary read goes to the `catch` with its reason; a read that never settles leaves the page unchanged and loading; ownership is kept |
| App.TuneBegin | App.tsx:67-77 | without a truthy result only the error is set; a malformed result fails at once with the decoder's message; otherwise the decoded result and the instruction go to the service |
| App.TuneComplete | App.tsx:78-85 | success replaces only the result; failure sets the error and keeps the result; loading stops either way |
| App.Reset | App.tsx:88-100 | only the preview is revoked, with every other URL and the allocator's counter kept, and every field but the instruction returns to its initial value |
| App.SelectPrimary | App.tsx:102-108 | the file is stored, and the easter-egg mode survives only for another "abish" name |
| App.SelectSecondary | App.tsx:170 | the secondary file is stored and nothing else changes |
| App.ToggleAdvanced | App.tsx:177 | the advanced section flips and nothing else changes |
| App.EditPrompt | App.tsx:199 | the instruction becomes the typed text and nothing else changes |
| App.CurrentView | App.tsx:124-216 | the easter-egg screen, the result screen or the upload screen by their conditions; at most two overlays, one when loading outside the easter-egg flow and two exactly when loading outside it with no result; banner only on the upload screen for a truthy error; button disabled and label |
| App.Step | App.tsx:23-108 | every event keeps the page holding exactly the preview URL it shows |
| App.RunOwns | App.tsx:33-95 | after any sequence of events the page holds exactly the preview it shows |
| App.AtMostOnePreview | App.tsx:88-100 | at most one preview URL is ever live, and none after a reset |
| App.RunAppend | App.tsx:23-108 | running one more event is one more step after the run |
| App.TuneErrorNeverShown | App.tsx:80-82 | a tune from the result screen stays on it, and its error never reaches the banner |
| App.TuneErrorShownAfterReset | App.tsx:80-82 | a tune that fails after a reset shows its message (or the fallback) on the upload screen, whenever that text is non-empty |
| App.RestoreShowsResult | App.tsx:51-57 | a successful restore reaches the result screen with the result, a fresh preview of the primary photo and no overlay |
| App.RestoreFailureShown | App.tsx:59-64 | a failed restore stays on the upload screen without a result, and the banner shows exactly when the message is non-empty |
| App.TwoLoadersWhileRestoring | App.tsx:124-148 | while a normal restore runs, two loading overlays are mounted and the button is disabled |
| App.EasterEggShown | App.tsx:126-145 | when the timer fires the easter-egg screen shows with no overlay and no banner |
| App.ResetShowsUpload | App.tsx:88-100 | after a reset the upload screen shows with no overlay, no banner and the button disabled |

## Left out

- **The real `FileReader`.** Reading the file is not modelled. Its outcome, a data URL or an error event, is the `ReadEvent` parameter. The error event is not an `Error`, so it is modelled as `NonError`.
- **The remote restoration service.** `restoreMemory` is not part of this model. Its outcome is a `Result` parameter of the completion events, and the call made is returned as a `Request` value.
- **Timers as events.** The 1500 ms easter-egg timer and the 2500 ms loader interval are explicit events (`AbishTimerFired`, the tick count of `Loader.Ticks`). The `clearInterval` at unmount is not modelled.
- **React scheduling.** Batching, re-render timing and stale closures are not modelled. The completion transitions act on the page's current state. The source revokes the preview its closure captured when the click happened. The two agree unless the preview changes while a request is in flight.
- **Where a state transition starts.** The model lets any event reach any state. The disabled buttons that prevent a second restore while loading are stated in `App.CurrentView` and not enforced in `App.Step`.
- **The page's uploaders.** The uploader slots that the page mounts and unmounts when it switches screens are modelled separately (`ImageUploader`), not composed into `App.State`.
- **Object URLs per owner.** Object URLs are modelled with one allocator per owner, not one browser-wide registry. Each owner only ever revokes its own URLs.
- **Presentation and the icon components.** `console.error`, the `InfoBubble` and icon components, styling, text fields' rendering, and the `accept="image/*"` hint of the file input are left out. The handler's own `image/` check is modelled.
- JsStrings.ToLowerCase: lowers ASCII letters only; JavaScript's full Unicode case mapping is not modelled. The trigger word "abish" is ASCII.
- JsStrings.NatToDecimal: renders every natural number in plain decimal. `String(n)` switches to exponent notation from 10^21 on, far beyond any `Date.now()` value.
- **Strings as scalar values.** Strings are sequences of Unicode scalar values, not UTF-16 code units.
- **`Date.now()`.** It is the `now` parameter.

=== FILE: app.dfy ===
/** The page controller: an immutable record of the page's state and one
    transition per user action or asynchronous completion. The file reads,
    the remote restoration service, the easter-egg timer and the object-URL
    allocator are outside the model; their outcomes are parameters of the
    completion transitions. */
module App {
  import opened JsValues
  import opened JsStrings
  import opened Browser
  import opened FileUtils

  datatype State = State(
    primaryImage: Option<File>,
    secondaryImage: Option<File>,
    prompt: string,
    restoredImage: Option<string>,
    originalImagePreview: Option<UrlId>,
    isLoading: bool,
    error: Option<string>,
    showAdvanced: bool,
    isAbishMode: bool,
    urls: ObjectUrls)

  /** The instruction the advanced field starts with. */
  const DefaultPrompt: string := "Fully restore and colorize this old photograph with high fidelity. Remove scratches, dust, stains, and noise while preserving original details. Sharpen facial features, clothing, and background textures without over-smoothing. Apply natural, historically accurate colorization — ensuring all elements (skin tones, hair, eyes, clothing, and environment) are realistically and consistently colored. Avoid leaving any parts in black and white or desaturated. Enhance overall clarity and contrast for a vivid, lifelike result that feels like a modern, high-quality color photograph, while staying true to the original memory."

  const NoPrimaryMessage := "Please upload a primary photo to restore."
  const RestoreFallback := "An unknown error occurred."
  const NoRestoredMessage := "No restored image to tune."
  const TuneFallback := "An unknown error occurred during tuning."

  /** The page as first rendered. */
  const Initial := State(None, None, DefaultPrompt, None, None, false, None, false, false, NoUrls)

  /** The page holds exactly the preview URL it shows, and its allocator is
      sound. */
  predicate Owns(s: State)
  {
    Valid(s.urls) && s.urls.live.Keys == Held(s.originalImagePreview)
  }

  /** `name.toLowerCase().includes('abish')`. */
  predicate IsAbishName(name: string)
  {
    Includes(ToLowerCase(name), "abish")
  }

  /** What a normal restore captured when it began: the two files and the
      instruction. */
  datatype Job = Job(primary: File, secondary: Option<File>, prompt: string)

  /** How the restore handler left off after its synchronous part. */
  datatype Begun = NoPrimary | EasterEgg(file: File) | Started(job: Job)

  /** A call of the remote restoration service. */
  datatype Request = Request(primary: Base64File, secondary: Option<Base64File>, instruction: string)

  /** The synchronous part of the restore handler. Without a primary photo
      it only reports the missing photo; for a photo whose name contains
      "abish" it only starts the fake loading; otherwise it starts loading
      and clears the error and the previous result. */
  function RestoreBegin(s: State): (r: (State, Begun))
    ensures r.1.NoPrimary? <==> s.primaryImage.None?
    ensures r.1.NoPrimary? ==> r.0.error == Some(NoPrimaryMessage) && r.0.(error := s.error) == s
    ensures r.1.EasterEgg? <==> s.primaryImage.Some? && IsAbishName(s.primaryImage.value.name)
    ensures r.1.EasterEgg? ==>
      r.1.file == s.primaryImage.value && r.0.isLoading && r.0.(isLoading := s.isLoading) == s
    ensures r.1.Started? ==>
      && r.1.job == Job(s.primaryImage.value, s.secondaryImage, s.prompt)
      && r.0.isLoading && r.0.error.None? && r.0.restoredImage.None?
      && r.0.(isLoading := s.isLoading, error := s.error, restoredImage := s.restoredImage) == s
  {
    if s.primaryImage.None? then (s.(error := Some(NoPrimaryMessage)), NoPrimary)
    else if IsAbishName(s.primaryImage.value.name) then
      (s.(isLoading := true), EasterEgg(s.primaryImage.value))
    else
      (s.(isLoading := true, error := None, restoredImage := None),
       Started(Job(s.primaryImage.value, s.secondaryImage, s.prompt)))
  }

  /** The easter egg's timer firing: the previous preview is revoked, a
      fresh one shows the photo, the page enters the easter-egg mode and
      stops loading. The error and the result are not touched. */
  function AbishComplete(s: State, file: File): (r: State)
    ensures Owns(s) ==> Owns(r)
    ensures r.isAbishMode && !r.isLoading
    ensures r.originalImagePreview.Some?
    ensures r.urls.live == (s.urls.live - Held(s.originalImagePreview))[r.originalImagePreview.value := file]
    ensures Valid(s.urls) ==> r.originalImagePreview.value !in s.urls.live
    ensures r.originalImagePreview.value >= s.urls.next
    ensures r.error == s.error && r.restoredImage == s.restoredImage
    ensures r.(urls := s.urls, originalImagePreview := s.originalImagePreview,
               isAbishMode := s.isAbishMode, isLoading := s.isLoading) == s
  {
    var (urls, id) := Replace(s.urls, s.originalImagePreview, file);
    s.(urls := urls, originalImagePreview := Some(id), isAbishMode := true, isLoading := false)
  }

  /** The restore handler's `catch` and `finally`. */
  function RestoreFailed(s: State, err: Thrown): (r: State)
    ensures r.error == Some(MessageOr(err, RestoreFallback)) && !r.isLoading
    ensures r.(error := s.error, isLoading := s.isLoading) == s
  {
    s.(error := Some(MessageOr(err, RestoreFallback)), isLoading := false)
  }

  /** The remote call of a normal restore and its outcome: the result and a
      fresh preview of the primary photo on success, the error otherwise. */
  function RestoreCall(s: State, job: Job, primary: Base64File, secondary: Option<Base64File>,
                       remote: Result<string>): (r: (State, Request))
    ensures Owns(s) ==> Owns(r.0)
    ensures r.1 == Request(primary, secondary, job.prompt)
    ensures !r.0.isLoading
    ensures remote.Success? ==>
      && r.0.restoredImage == Some(remote.value)
      && r.0.originalImagePreview.Some?
      && r.0.urls.live == (s.urls.live - Held(s.originalImagePreview))[r.0.originalImagePreview.value := job.primary]
      && r.0.error == s.error
    ensures remote.Success? && Valid(s.urls) ==> r.0.originalImagePreview.value !in s.urls.live
    ensures remote.Success? ==> r.0.originalImagePreview.value >= s.urls.next
    ensures remote.Success? ==>
      r.0.(restoredImage := s.restoredImage, originalImagePreview := s.originalImagePreview,
           urls := s.urls, isLoading := s.isLoading) == s
    ensures remote.Failure? ==> r.0 == RestoreFailed(s, remote.error)
  {
    var req := Request(primary, secondary, job.prompt);
    match remote
    case Success(result) =>
      var (urls, id) := Replace(s.urls, s.originalImagePreview, job.primary);
      (s.(restoredImage := Some(result), originalImagePreview := Some(id), urls := urls,
          isLoading := false), req)
    case Failure(err) => (RestoreFailed(s, err), req)
  }

  /** The rest of a normal restore, once the reads have produced their
      events and the service its outcome: the new state and the service
      call made, if any. A read that fails rejects into the `catch`; a read
      whose parse throws inside the reader's callback never settles, and
      the page stays as it was, still loading. The secondary read happens
      only when a secondary photo was captured, after the primary one. */
  function RestoreComplete(s: State, job: Job, primaryRead: ReadEvent, secondaryRead: ReadEvent,
                           remote: Result<string>): (r: (State, Option<Request>))
    ensures Owns(s) ==> Owns(r.0)
    ensures FileToBase64(primaryRead).NeverSettles? ==> r == (s, None)
    ensures FileToBase64(primaryRead).Rejected? ==>
      r == (RestoreFailed(s, FileToBase64(primaryRead).reason), None)
    ensures (FileToBase64(primaryRead).Resolved? && job.secondary.Some?
             && FileToBase64(secondaryRead).NeverSettles?) ==> r == (s, None)
    ensures (FileToBase64(primaryRead).Resolved? && job.secondary.Some?
             && FileToBase64(secondaryRead).Rejected?) ==>
      r == (RestoreFailed(s, FileToBase64(secondaryRead).reason), None)
    ensures r.1.Some? <==>
      && FileToBase64(primaryRead).Resolved?
      && (job.secondary.Some? ==> FileToBase64(secondaryRead).Resolved?)
    ensures r.1.Some? ==>
      && r.1.value.primary == FileToBase64(primaryRead).file
      && r.1.value.instruction == job.prompt
      && (r.1.value.secondary.Some? <==> job.secondary.Some?)
      && (job.secondary.Some? ==> r.1.value.secondary.value == FileToBase64(secondaryRead).file)
      && r.0 == RestoreCall(s, job, r.1.value.primary, r.1.value.secondary, remote).0
  {
    match FileToBase64(primaryRead)
    case NeverSettles => (s, None)
    case Rejected(err) => (RestoreFailed(s, err), None)
    case Resolved(p) =>
      if job.secondary.None? then
        var (t, req) := RestoreCall(s, job, p, None, remote);
        (t, Some(req))
      else
        match FileToBase64(secondaryRead)
        case NeverSettles => (s, None)
        case Rejected(err) => (RestoreFailed(s, err), None)
        case Resolved(q) =>
          var (t, req) := RestoreCall(s, job, p, Some(q), remote);
          (t, Some(req))
  }

  /** How the tune handler left off after its synchronous part. */
  datatype TuneBegun = NothingToTune | DecodeFailed | Calling(request: Request)

  /** The synchronous part of the tune handler: without a (truthy) result it
      only reports that; otherwise it starts loading, clears the error and
      decodes the result, a decoding error going straight to the `catch`
      and `finally`. */
  function TuneBegin(s: State, tunePrompt: string): (r: (State, TuneBegun))
    ensures r.1.NothingToTune? <==> !Truthy(s.restoredImage)
    ensures r.1.NothingToTune? ==> r.0 == s.(error := Some(NoRestoredMessage))
    ensures r.1.DecodeFailed? <==>
      Truthy(s.restoredImage) && Malformed(s.restoredImage.value)
    ensures r.1.DecodeFailed? ==>
      r.0 == s.(error := Some(InvalidDataUrlFormat), isLoading := false)
    ensures r.1.Calling? ==>
      && DataUrlToBase64File(s.restoredImage.value) == Success(r.1.request.primary)
      && r.1.request.secondary.None?
      && r.1.request.instruction == tunePrompt
      && r.0 == s.(isLoading := true, error := None)
  {
    if !Truthy(s.restoredImage) then (s.(error := Some(NoRestoredMessage)), NothingToTune)
    else
      var t := s.(isLoading := true, error := None);
      match DataUrlToBase64File(s.restoredImage.value)
      case Failure(err) => (t.(error := Some(MessageOr(err, TuneFallback)), isLoading := false), DecodeFailed)
      case Success(f) => (t, Calling(Request(f, None, tunePrompt)))
  }

  /** The tune call's outcome: only the result changes on success; the
      error is set and the result kept on failure. Loading ends either
      way. */
  function TuneComplete(s: State, remote: Result<string>): (r: State)
    ensures !r.isLoading
    ensures remote.Success? ==> r == s.(restoredImage := Some(remote.value), isLoading := false)
    ensures remote.Failure? ==>
      r == s.(error := Some(MessageOr(remote.error, TuneFallback)), isLoading := false)
  {
    match remote
    case Success(result) => s.(restoredImage := Some(result), isLoading := false)
    case Failure(err) => s.(error := Some(MessageOr(err, TuneFallback)), isLoading := false)
  }

  /** "Restore another photo" / "Try another photo": the preview is
      revoked and everything but the instruction goes back to its initial
      value. */
  function Reset(s: State): (r: State)
    ensures r.urls == Release(s.urls, s.originalImagePreview)
    ensures r.urls.live.Keys == s.urls.live.Keys - Held(s.originalImagePreview)
    ensures Owns(s) ==> Owns(r) && r.urls.live == map[]
    ensures r.prompt == s.prompt
    ensures r.(urls := NoUrls) == Initial.(prompt := s.prompt)
  {
    State(None, None, s.prompt, None, None, false, None, false, false,
          Release(s.urls, s.originalImagePreview))
  }

  /** The primary uploader's callback: the file is stored; the easter-egg
      mode is left only for a file whose name does not contain "abish". */
  function SelectPrimary(s: State, file: File): (r: State)
    ensures r.primaryImage == Some(file)
    ensures r.isAbishMode <==> s.isAbishMode && IsAbishName(file.name)
    ensures r.(primaryImage := s.primaryImage, isAbishMode := s.isAbishMode) == s
  {
    var t := s.(primaryImage := Some(file));
    if !IsAbishName(file.name) then t.(isAbishMode := false) else t
  }

  /** The secondary uploader's callback stores the file. */
  function SelectSecondary(s: State, file: File): (r: State)
    ensures r.secondaryImage == Some(file) && r.(secondaryImage := s.secondaryImage) == s
  {
    s.(secondaryImage := Some(file))
  }

  /** The "Advanced Instructions" header toggles the instruction field. */
  function ToggleAdvanced(s: State): (r: State)
    ensures r.showAdvanced != s.showAdvanced && r.(showAdvanced := s.showAdvanced) == s
  {
    s.(showAdvanced := !s.showAdvanced)
  }

  /** Typing in the instruction field. */
  function EditPrompt(s: State, text: string): (r: State)
    ensures r.prompt == text && r.(prompt := s.prompt) == s
  {
    s.(prompt := text)
  }

  /** Which of the three screens is shown. */
  datatype Screen = EasterEggScreen | ResultScreen | UploadScreen

  /** What the page renders, as far as it depends on the state. */
  datatype View = View(
    screen: Screen,
    loaders: nat,
    errorShown: Option<string>,
    restoreDisabled: bool,
    restoreLabel: string)

  function CurrentView(s: State): (v: View)
    ensures v.screen == EasterEggScreen <==> s.isAbishMode && s.originalImagePreview.Some?
    ensures v.screen == ResultScreen <==>
      !(s.isAbishMode && s.originalImagePreview.Some?)
      && Truthy(s.restoredImage) && s.originalImagePreview.Some?
    ensures v.loaders > 0 <==> s.isLoading && (!s.isAbishMode || (v.screen != EasterEggScreen && !Truthy(s.restoredImage)))
    ensures v.loaders <= 2
    ensures v.loaders == 2 <==> s.isLoading && !s.isAbishMode && !Truthy(s.restoredImage)
    ensures v.errorShown.Some? <==> v.screen == UploadScreen && Truthy(s.error)
    ensures v.errorShown.Some? ==> v.errorShown == s.error
    ensures v.restoreDisabled <==> s.primaryImage.None? || s.isLoading
    ensures v.restoreLabel == (if s.isLoading then "Restoring..." else "Restore Memory")
  {
    var screen :=
      if s.isAbishMode && s.originalImagePreview.Some? then EasterEggScreen
      else if Truthy(s.restoredImage) && s.originalImagePreview.Some? then ResultScreen
      else UploadScreen;
    var top := if s.isLoading && !s.isAbishMode then 1 else 0;
    var inner := if screen != EasterEggScreen && s.isLoading && !Truthy(s.restoredImage) then 1 else 0;
    View(screen, top + inner,
         if screen == UploadScreen && Truthy(s.error) then s.error else None,
         s.primaryImage.None? || s.isLoading,
         if s.isLoading then "Restoring..." else "Restore Memory")
  }

  /** Everything that can happen to the page, each with the outcomes of the
      work it waited on. */
  datatype Event =
    | ClickRestore
    | AbishTimerFired(file: File)
    | RestoreSettled(job: Job, primaryRead: ReadEvent, secondaryRead: ReadEvent, remote: Result<string>)
    | SubmitTune(tunePrompt: string)
    | TuneSettled(remote: Result<string>)
    | ClickReset
    | PrimaryChosen(file: File)
    | SecondaryChosen(file: File)
    | ClickAdvanced
    | TypePrompt(text: string)

  function Step(s: State, e: Event): (r: State)
    ensures Owns(s) ==> Owns(r)
  {
    match e
    case ClickRestore => RestoreBegin(s).0
    case AbishTimerFired(file) => AbishComplete(s, file)
    case RestoreSettled(job, pr, sr, remote) => RestoreComplete(s, job, pr, sr, remote).0
    case SubmitTune(tunePrompt) => TuneBegin(s, tunePrompt).0
    case TuneSettled(remote) => TuneComplete(s, remote)
    case ClickReset => Reset(s)
    case PrimaryChosen(file) => SelectPrimary(s, file)
    case SecondaryChosen(file) => SelectSecondary(s, file)
    case ClickAdvanced => ToggleAdvanced(s)
    case TypePrompt(text) => EditPrompt(s, text)
  }

  function Run(s: State, events: seq<Event>): (r: State)
    decreases |events|
  {
    if |events| == 0 then s else Run(Step(s, events[0]), events[1..])
  }

  /** Whatever happens, the page's allocator holds exactly the preview the
      page shows: a superseded preview is always revoked. */
  lemma {:induction false} RunOwns(s: State, events: seq<Event>)
    requires Owns(s)
    ensures Owns(Run(s, events))
    decreases |events|
  {
    if |events| > 0 {
      RunOwns(Step(s, events[0]), events[1..]);
    }
  }

  /** From the first render on, at most one preview URL is live, and after
      a reset none is. */
  lemma {:induction false} AtMostOnePreview(events: seq<Event>)
    ensures |Run(Initial, events).urls.live.Keys| <= 1
    ensures Run(Initial, events + [ClickReset]).urls.live == map[]
  {
    RunOwns(Initial, events);
    RunAppend(Initial, events, ClickReset);
  }

  lemma {:induction false} RunAppend(s: State, events: seq<Event>, e: Event)
    ensures Run(s, events + [e]) == Step(Run(s, events), e)
    decreases |events|
  {
    if |events| > 0 {
      assert (events + [e])[1..] == events[1..] + [e];
      RunAppend(Step(s, events[0]), events[1..], e);
    }
  }

  /** A tune started from the result screen never surfaces its error: the
      result and the preview are kept, so the page stays on the result
      screen, and the error banner belongs to the upload screen only. */
  lemma {:induction false} TuneErrorNeverShown(s: State, tunePrompt: string, err: Thrown)
    requires CurrentView(s).screen == ResultScreen
    ensures CurrentView(TuneBegin(s, tunePrompt).0).screen == ResultScreen
    ensures CurrentView(TuneBegin(s, tunePrompt).0).errorShown.None?
    ensures CurrentView(TuneComplete(TuneBegin(s, tunePrompt).0, Failure(err))).screen == ResultScreen
    ensures CurrentView(TuneComplete(TuneBegin(s, tunePrompt).0, Failure(err))).errorShown.None?
  {
  }

  /** The reset button of the result screen stays enabled while a tune is
      running. A tune that fails after a reset does show its error: the
      page is back on the upload screen, and the `catch` still sets the
      message. */
  lemma {:induction false} TuneErrorShownAfterReset(s: State, tunePrompt: string, err: Thrown)
    ensures var t := TuneComplete(Reset(TuneBegin(s, tunePrompt).0), Failure(err));
      && CurrentView(t).screen == UploadScreen
      && (CurrentView(t).errorShown.Some? <==> MessageOr(err, TuneFallback) != "")
      && (CurrentView(t).errorShown.Some? ==> CurrentView(t).errorShown.value == MessageOr(err, TuneFallback))
  {
    var t := TuneComplete(Reset(TuneBegin(s, tunePrompt).0), Failure(err));
    assert t.restoredImage.None? && t.originalImagePreview.None? && !t.isAbishMode;
  }

  /** A normal restore whose service call succeeds with a non-empty
      result, completing from a state not in the easter-egg mode (every
      completion whose reads resolve is such a call, by the contract of
      `RestoreComplete`), moves the page to the result screen, showing the
      result and a fresh preview of the primary photo; no loader remains. */
  lemma RestoreShowsResult(b: State, job: Job, primary: Base64File, secondary: Option<Base64File>, result: string)
    requires !b.isAbishMode && result != ""
    ensures var t := RestoreCall(b, job, primary, secondary, Success(result)).0;
      && CurrentView(t).screen == ResultScreen
      && t.restoredImage == Some(result)
      && t.urls.live[t.originalImagePreview.value] == job.primary
      && (Valid(b.urls) ==> t.originalImagePreview.value !in b.urls.live)
      && CurrentView(t).loaders == 0
  {
  }

  /** A normal restore whose service call fails, completing from a state
      not in the easter-egg mode whose result the handler cleared, leaves
      the page on the upload screen with the error's message in the banner;
      a thrown `Error` with an empty message leaves the banner hidden. */
  lemma RestoreFailureShown(b: State, job: Job, primary: Base64File, secondary: Option<Base64File>, err: Thrown)
    requires !b.isAbishMode && b.restoredImage.None?
    ensures var t := RestoreCall(b, job, primary, secondary, Failure(err)).0;
      && CurrentView(t).screen == UploadScreen
      && t.restoredImage.None?
      && (CurrentView(t).errorShown.Some? <==> MessageOr(err, RestoreFallback) != "")
      && CurrentView(t).loaders == 0
  {
  }

  /** While a normal restore is running, two loading overlays are mounted:
      the page-level one and the one inside the non-easter-egg branch. */
  lemma TwoLoadersWhileRestoring(s: State)
    requires !s.isAbishMode && RestoreBegin(s).1.Started?
    ensures CurrentView(RestoreBegin(s).0).loaders == 2
    ensures CurrentView(RestoreBegin(s).0).restoreDisabled
  {
  }

  /** When the easter egg's timer fires the page shows the easter-egg
      screen with no loader, whatever the result and error hold. */
  lemma {:induction false} EasterEggShown(s: State)
    requires RestoreBegin(s).1.EasterEgg?
    ensures var t := AbishComplete(RestoreBegin(s).0, RestoreBegin(s).1.file);
      && CurrentView(t).screen == EasterEggScreen
      && CurrentView(t).loaders == 0
      && CurrentView(t).errorShown.None?
  {
    var (b, begun) := RestoreBegin(s);
    var t := AbishComplete(b, begun.file);
    assert t.isAbishMode && t.originalImagePreview.Some? && !t.isLoading;
  }

  /** After a reset the page is back on the upload screen with nothing
      loading, no banner and the restore button disabled. */
  lemma ResetShowsUpload(s: State)
    ensures CurrentView(Reset(s)).screen == UploadScreen
    ensures CurrentView(Reset(s)).loaders == 0
    ensures CurrentView(Reset(s)).errorShown.None?
    ensures CurrentView(Reset(s)).restoreDisabled
  {
  }
}

=== FILE: browser.dfy ===
/** The two browser facilities the client touches: the `File` objects it
    receives, and the object-URL allocator (`URL.createObjectURL` /
    `URL.revokeObjectURL`). An allocator is modelled per owner as the set of
    URLs it has created and not yet revoked, each mapped to the file it
    stands for, together with the next id it will hand out. */
module Browser {
  import opened JsValues

  /** A selected file: `File.name` and `File.type` (its MIME type). */
  datatype File = File(name: string, mimeType: string)

  type UrlId = nat

  datatype ObjectUrls = ObjectUrls(live: map<UrlId, File>, next: UrlId)

  /** Every live URL was handed out before `next`, so `next` is fresh. */
  predicate Valid(u: ObjectUrls)
  {
    forall id :: id in u.live ==> id < u.next
  }

  /** An allocator that has handed out nothing. */
  const NoUrls := ObjectUrls(map[], 0)

  /** The set of URLs a nullable preview field holds. */
  function Held(preview: Option<UrlId>): set<UrlId>
  {
    if preview.Some? then {preview.value} else {}
  }

  /** `URL.createObjectURL(file)`: a URL never handed out before, now live
      and standing for `file`; no other URL changes. */
  function CreateObjectUrl(u: ObjectUrls, file: File): (r: (ObjectUrls, UrlId))
    ensures Valid(u) ==> Valid(r.0) && r.1 !in u.live
    ensures r.0.live == u.live[r.1 := file]
    ensures r.1 >= u.next && r.0.next > r.1
  {
    (ObjectUrls(u.live[u.next := file], u.next + 1), u.next)
  }

  /** `URL.revokeObjectURL(id)`: the URL is no longer live; revoking a URL
      that is not live has no effect. */
  function RevokeObjectUrl(u: ObjectUrls, id: UrlId): (r: ObjectUrls)
    ensures id !in r.live
    ensures forall other :: other != id ==> (other in r.live <==> other in u.live)
    ensures forall other :: other != id && other in u.live ==> r.live[other] == u.live[other]
    ensures id !in u.live ==> r == u
    ensures Valid(u) ==> Valid(r)
    ensures r.next == u.next
  {
    ObjectUrls(u.live - {id}, u.next)
  }

  /** `if (preview) URL.revokeObjectURL(preview)`. */
  function Release(u: ObjectUrls, preview: Option<UrlId>): (r: ObjectUrls)
    ensures r.live.Keys == u.live.Keys - Held(preview)
    ensures forall id :: id in r.live ==> r.live[id] == u.live[id]
    ensures Valid(u) ==> Valid(r)
    ensures r.next == u.next
  {
    if preview.Some? then RevokeObjectUrl(u, preview.value) else u
  }

  /** Releasing twice is releasing once: a revoked URL stays revoked and
      revoking it again is harmless. */
  lemma ReleaseIdempotent(u: ObjectUrls, preview: Option<UrlId>)
    ensures Release(Release(u, preview), preview) == Release(u, preview)
  {
  }

  /** The release-before-replace step the client performs whenever a new
      preview supersedes a prior one: revoke the prior URL if there is one,
      then create a URL for the new file. */
  function Replace(u: ObjectUrls, prior: Option<UrlId>, file: File): (r: (ObjectUrls, UrlId))
    ensures r.0.live == (u.live - Held(prior))[r.1 := file]
    ensures Valid(u) ==> Valid(r.0) && r.1 !in u.live
    ensures r.0.next > r.1 >= u.next
  {
    CreateObjectUrl(Release(u, prior), file)
  }

  /** An owner whose allocator holds exactly its one preview field keeps
      holding exactly that field after replacing it: the superseded URL is
      never leaked. */
  lemma {:induction false} ReplaceKeepsOwnership(u: ObjectUrls, prior: Option<UrlId>, file: File)
    requires Valid(u) && u.live.Keys == Held(prior)
    ensures Replace(u, prior, file).0.live.Keys == {Replace(u, prior, file).1}
    ensures Replace(u, prior, file).0.live[Replace(u, prior, file).1] == file
  {
    var (u', id) := Replace(u, prior, file);
    assert (u.live - Held(prior)).Keys == {};
  }
}

=== FILE: file_utils.dfy ===
/** The encoding utility: splitting a `data:` URL (RFC 2397, section 3:
    `data:[<mediatype>][;base64],<data>`) into the `Base64File` record the
    remote service consumes. There are two parsers with the same split but
    different MIME extraction:
    - `dataUrlToBase64File` takes the first group of the lazy regular
      expression `/:(.*?);/` on the header, falling back to
      `application/octet-stream`;
    - the `onload` step of `fileToBase64` takes
      `header.split(':')[1].split(';')[0]`, which throws when the header
      has no `:`. */
module FileUtils {
  import opened JsValues
  import opened JsStrings

  /** The payload handed to the remote service. */
  datatype Base64File = Base64File(data: string, mimeType: string)

  const InvalidFileFormat := "Invalid file format"
  const InvalidDataUrlFormat := "Invalid data URL format"
  const OctetStream := "application/octet-stream"

  // ---------------------------------------------------------------------
  // The shared split: `const [header, data] = url.split(',')` and the
  // guard `if (!header || !data)`.
  // ---------------------------------------------------------------------

  /** The URL has no comma, or nothing before its first comma, or nothing
      between its first comma and the next comma (or the end). */
  predicate Malformed(url: string)
  {
    || ',' !in url
    || url[0] == ','
    || IndexOf(url, ',') + 1 == |url|
    || url[IndexOf(url, ',') + 1] == ','
  }

  /** `d` is exactly the text between the first comma of `url` and the
      second comma (or the end): a comma-free run of `url`, unaltered. */
  predicate PayloadOf(url: string, d: string)
  {
    var i := IndexOf(url, ',');
    && 0 <= i
    && OccursAt(url, d, i + 1)
    && ',' !in d
    && (i + 1 + |d| == |url| || url[i + 1 + |d|] == ',')
  }

  datatype Fields = Fields(header: string, data: string)

  /** The header and payload of a data URL, or None when the guard
      rejects it. */
  function SplitDataUrl(url: string): (r: Option<Fields>)
    ensures r.None? <==> Malformed(url)
    ensures r.Some? ==> r.value.header == url[..IndexOf(url, ',')] && r.value.header != ""
    ensures r.Some? ==> PayloadOf(url, r.value.data) && r.value.data != ""
  {
    var parts := Split(url, ',');
    SplitFieldsMeaning(url);
    if parts[0] == "" || |parts| < 2 || parts[1] == "" then None
    else Some(Fields(parts[0], parts[1]))
  }

  /** The guard on the first two pieces of `url.split(',')`, in terms of
      the characters of `url`. */
  lemma SplitFieldsMeaning(url: string)
    ensures var parts := Split(url, ',');
            && (parts[0] == "" || |parts| < 2 || parts[1] == "" <==> Malformed(url))
            && (!Malformed(url) ==> parts[0] == url[..IndexOf(url, ',')] && PayloadOf(url, parts[1]))
  {
    SplitPieces(url, ',');
    if ',' in url {
      SecondFieldMeaning(url);
    }
  }

  /** The text after the first comma, cut at the next comma, is the
      payload; it is empty exactly when the comma is last or doubled. */
  lemma SecondFieldMeaning(url: string)
    requires ',' in url
    ensures PayloadOf(url, Before(url[IndexOf(url, ',') + 1..], ','))
    ensures Before(url[IndexOf(url, ',') + 1..], ',') == "" <==>
              IndexOf(url, ',') + 1 == |url| || url[IndexOf(url, ',') + 1] == ','
  {
    var i := IndexOf(url, ',');
    SliceBefore(url, i + 1, ',');
  }

  /** The text of `s` from `start` up to the next `c` (or the end) is an
      unaltered `c`-free run of `s` that ends at a `c` or at the end. */
  lemma SliceBefore(s: string, start: nat, c: char)
    requires start <= |s|
    ensures var d := Before(s[start..], c);
      && OccursAt(s, d, start)
      && (start + |d| == |s| || s[start + |d|] == c)
      && (d == "" <==> start == |s| || s[start] == c)
  {
    var rest := s[start..];
    var d := Before(rest, c);
    assert rest[..|d|] == s[start..start + |d|];
    if |d| < |rest| {
      assert rest[|d|] == s[start + |d|];
    }
    if |rest| > 0 {
      assert rest[0] == s[start];
    }
  }

  /** A URL made of a comma-free header, a comma and a rest splits into
      the header and the rest's text before its first comma. */
  lemma SplitDataUrlOf(header: string, rest: string)
    requires ',' !in header && header != "" && Before(rest, ',') != ""
    ensures SplitDataUrl(header + [','] + rest) == Some(Fields(header, Before(rest, ',')))
  {
    var url := header + [','] + rest;
    var data := Before(rest, ',');
    BeforeConcat(header, ',', rest);
    var r := SplitDataUrl(url);
    assert r.value.header == header;
    assert OccursAt(url, data, |header| + 1) by {
      assert url[|header| + 1..] == rest;
      assert rest[..|data|] == url[|header| + 1..|header| + 1 + |data|];
    }
    DelimitedRunUnique(url, |header| + 1, data, r.value.data, ',');
  }

  // ---------------------------------------------------------------------
  // The regular expression /:(.*?);/ (without flags: `.` matches anything
  // but a line terminator; the search returns the leftmost match).
  // ---------------------------------------------------------------------

  /** Where the lazy `(.*?);` part ends when it starts at position `k`: the
      first `;` at or after `k`, unless a line terminator comes first. */
  function LazyGroupEnd(h: string, k: nat): (q: Option<nat>)
    ensures q.Some? ==> k <= q.value < |h| && h[q.value] == ';'
    ensures q.Some? ==> forall j :: k <= j < q.value ==> h[j] != ';' && !IsLineTerminator(h[j])
    decreases |h| - k
  {
    if k >= |h| then None
    else if h[k] == ';' then Some(k)
    else if IsLineTerminator(h[k]) then None
    else LazyGroupEnd(h, k + 1)
  }

  /** The group captured by a match that starts at position `p`, if the
      pattern matches there. */
  function MatchAt(h: string, p: nat): Option<string>
  {
    if p < |h| && h[p] == ':' then
      match LazyGroupEnd(h, p + 1)
      case Some(q) => Some(h[p + 1..q])
      case None => None
    else None
  }

  /** `h.match(/:(.*?);/)` searched from position `p` onward: the group of
      the leftmost match. A group is `;`-free and line-terminator-free, and
      it sits between a `:` and a `;` of `h`. */
  function MatchFrom(h: string, p: nat): (g: Option<string>)
    ensures g.Some? ==> ';' !in g.value
    ensures g.Some? ==> forall j :: 0 <= j < |g.value| ==> !IsLineTerminator(g.value[j])
    ensures g.Some? ==> exists a :: p <= a && OccursAt(h, [':'] + g.value + [';'], a)
    decreases |h| - p
  {
    if p >= |h| then None
    else if MatchAt(h, p).Some? then
      var q := LazyGroupEnd(h, p + 1).value;
      assert h[p..q + 1] == [':'] + h[p + 1..q] + [';'];
      assert OccursAt(h, [':'] + h[p + 1..q] + [';'], p);
      MatchAt(h, p)
    else MatchFrom(h, p + 1)
  }

  predicate NoLineTerminators(s: string)
  {
    forall j :: 0 <= j < |s| ==> !IsLineTerminator(s[j])
  }

  /** A `:` occurs in the header and a `;` occurs somewhere after it. */
  predicate ColonThenSemicolon(h: string)
  {
    ':' in h && ';' in h[IndexOf(h, ':') + 1..]
  }

  /** `m` is the text from just after the first `:` of `h` up to the first
      `;` after it. */
  predicate MimeSegment(h: string, m: string)
  {
    var i := IndexOf(h, ':');
    && 0 <= i
    && OccursAt(h, m, i + 1)
    && ';' !in m
    && i + 1 + |m| < |h| && h[i + 1 + |m|] == ';'
  }

  /** The lazy group started at `k` ends at `q` when `h[q]` is the first
      `;` from `k` on and no line terminator comes before it. */
  lemma {:induction false} LazyGroupEndAt(h: string, k: nat, q: nat)
    requires k <= q < |h| && h[q] == ';'
    requires forall j :: k <= j < q ==> h[j] != ';' && !IsLineTerminator(h[j])
    ensures LazyGroupEnd(h, k) == Some(q)
    decreases q - k
  {
    if k < q {
      LazyGroupEndAt(h, k + 1, q);
    }
  }

  /** Without any `;` from `k` on, the lazy group never ends. */
  lemma {:induction false} LazyGroupEndNone(h: string, k: nat)
    requires forall j :: k <= j < |h| ==> h[j] != ';'
    ensures LazyGroupEnd(h, k).None?
    decreases |h| - k
  {
    if k < |h| {
      LazyGroupEndNone(h, k + 1);
    }
  }

  /** Positions before the first `:` cannot start a match. */
  lemma {:induction false} MatchFromSkipsToColon(h: string, p: nat, i: nat)
    requires p <= i <= |h|
    requires forall j :: p <= j < i ==> h[j] != ':'
    ensures MatchFrom(h, p) == MatchFrom(h, i)
    decreases i - p
  {
    if p < i {
      MatchFromSkipsToColon(h, p + 1, i);
    }
  }

  /** A match from position `p` on needs a `;` from `p` on. */
  lemma MatchNeedsSemicolon(h: string, p: nat)
    requires p <= |h| && MatchFrom(h, p).Some?
    ensures exists j :: p <= j < |h| && h[j] == ';'
  {
    var g := MatchFrom(h, p).value;
    var a :| p <= a && OccursAt(h, [':'] + g + [';'], a);
    var pat := [':'] + g + [';'];
    assert pat[|g| + 1] == ';';
    assert h[a..a + |pat|] == pat;
    assert h[a + |g| + 1] == h[a..a + |pat|][|g| + 1];
  }

  /** The first `c` at or after `k`, as a position of `s`. */
  lemma FirstFrom(s: string, k: nat, c: char)
    requires k <= |s| && c in s[k..]
    ensures var q := k + IndexOf(s[k..], c);
      k <= q < |s| && s[q] == c && forall j :: k <= j < q ==> s[j] != c
  {
    var rest := s[k..];
    var t := IndexOf(rest, c);
    forall j | k <= j < k + t
      ensures s[j] != c
    {
      assert s[j] == rest[..t][j - k];
    }
  }

  /** For a header without line terminators the regular expression
      captures the text between the first `:` and the first `;` after it,
      and matches nothing when no `;` follows the first `:`. */
  lemma RegexMimePlain(h: string)
    requires NoLineTerminators(h)
    ensures ColonThenSemicolon(h) ==> MatchFrom(h, 0).Some? && MimeSegment(h, MatchFrom(h, 0).value)
    ensures !ColonThenSemicolon(h) ==> MatchFrom(h, 0).None?
  {
    if ':' !in h {
      MatchFromSkipsToColon(h, 0, |h|);
    } else {
      var i := IndexOf(h, ':');
      assert forall j :: 0 <= j < i ==> h[j] == h[..i][j];
      MatchFromSkipsToColon(h, 0, i);
      if ';' !in h[i + 1..] {
        assert forall j :: i + 1 <= j < |h| ==> h[j] == h[i + 1..][j - (i + 1)];
        RegexNoSemicolonAfterColon(h, i);
      } else {
        FirstFrom(h, i + 1, ';');
        var q := i + 1 + IndexOf(h[i + 1..], ';');
        RegexSemicolonAfterColon(h, i, q);
        MimeSegmentOf(h, i, q);
      }
    }
  }

  /** The text between a `:` at `i` and the first `;` after it at `q`. */
  lemma MimeSegmentOf(h: string, i: nat, q: nat)
    requires i < q < |h| && IndexOf(h, ':') == i && h[q] == ';'
    requires forall j :: i < j < q ==> h[j] != ';'
    ensures MimeSegment(h, h[i + 1..q])
  {
    var m := h[i + 1..q];
    assert forall j :: 0 <= j < |m| ==> m[j] == h[i + 1 + j];
  }

  lemma RegexNoSemicolonAfterColon(h: string, i: nat)
    requires i < |h| && h[i] == ':'
    requires forall j :: i < j < |h| ==> h[j] != ';'
    ensures MatchFrom(h, i).None?
  {
    LazyGroupEndNone(h, i + 1);
    assert MatchAt(h, i).None?;
    if MatchFrom(h, i + 1).Some? {
      MatchNeedsSemicolon(h, i + 1);
    }
  }

  lemma RegexSemicolonAfterColon(h: string, i: nat, q: nat)
    requires i < q < |h| && h[i] == ':' && h[q] == ';'
    requires forall j :: i < j < q ==> h[j] != ';' && !IsLineTerminator(h[j])
    ensures MatchFrom(h, i) == Some(h[i + 1..q])
  {
    LazyGroupEndAt(h, i + 1, q);
    assert MatchAt(h, i) == Some(h[i + 1..q]);
  }

  /** The `.` of the pattern does not cross a line break: for the header
      `x:\n;y:z;` the first `:` cannot start a match and the group is `z`. */
  lemma RegexSkipsLineBreak()
    ensures MatchFrom("x:\n;y:z;", 0) == Some("z")
  {
    var h := "x:\n;y:z;";
    assert LazyGroupEnd(h, 2).None?;
    assert MatchAt(h, 1).None?;
    assert LazyGroupEnd(h, 7) == Some(7);
    assert LazyGroupEnd(h, 6) == Some(7);
    assert h[6..7] == "z";
    assert MatchAt(h, 5) == Some("z");
    assert MatchFrom(h, 5) == Some("z");
    assert MatchFrom(h, 4) == Some("z");
    assert MatchFrom(h, 3) == Some("z");
    assert MatchFrom(h, 2) == Some("z");
    assert MatchFrom(h, 1) == Some("z");
  }

  // ---------------------------------------------------------------------
  // The two parsers.
  // ---------------------------------------------------------------------

  /** `dataUrlToBase64File(url)`: throws `Error("Invalid data URL format")`
      exactly on a malformed URL; otherwise returns the text between the
      first and second comma as the payload. */
  function DataUrlToBase64File(url: string): (r: Result<Base64File>)
    ensures r.Failure? <==> Malformed(url)
    ensures r.Failure? ==> r.error == ErrorWithMessage(InvalidDataUrlFormat)
    ensures r.Success? ==> PayloadOf(url, r.value.data) && r.value.data != ""
  {
    match SplitDataUrl(url)
    case None => Failure(ErrorWithMessage(InvalidDataUrlFormat))
    case Some(fields) =>
      var m := MatchFrom(fields.header, 0);
      Success(Base64File(fields.data, if m.Some? then m.value else OctetStream))
  }

  /** The MIME type `dataUrlToBase64File` returns, for a header without
      line terminators: the text between the first `:` and the next `;`
      when such a `;` exists, and `application/octet-stream` (not an error)
      otherwise. */
  lemma DecodeMimeType(url: string)
    requires !Malformed(url)
    requires NoLineTerminators(url[..IndexOf(url, ',')])
    ensures DataUrlToBase64File(url).Success?
    ensures var h := url[..IndexOf(url, ',')];
            var m := DataUrlToBase64File(url).value.mimeType;
            && (ColonThenSemicolon(h) ==> MimeSegment(h, m))
            && (!ColonThenSemicolon(h) ==> m == OctetStream)
  {
    RegexMimePlain(url[..IndexOf(url, ',')]);
  }

  /** What the `FileReader` delivers: `onload` with the produced data URL,
      or `onerror`. */
  datatype ReadEvent = Loaded(dataUrl: string) | ReadFailed

  /** How the promise of `fileToBase64` settles. When `onload` throws (a
      header without `:` makes `header.split(':')[1]` undefined) the
      exception escapes the handler and the promise never settles. */
  datatype Settlement = Resolved(file: Base64File) | Rejected(reason: Thrown) | NeverSettles

  /** `header.split(':')[1].split(';')[0]`, or None where `[1]` is
      undefined and the chained `split` throws. */
  function ColonChainMime(header: string): (m: Option<string>)
    ensures m.None? <==> ':' !in header
    ensures m.Some? ==> m.value == Before(Before(header[IndexOf(header, ':') + 1..], ':'), ';')
  {
    var byColon := Split(header, ':');
    SplitPieces(header, ':');
    if |byColon| < 2 then None
    else
      SplitPieces(byColon[1], ';');
      Some(Split(byColon[1], ';')[0])
  }

  /** The settlement of `fileToBase64` once the reader has finished. */
  function FileToBase64(ev: ReadEvent): (r: Settlement)
    ensures ev.ReadFailed? ==> r == Rejected(NonError)
    ensures ev.Loaded? ==> (r.Rejected? <==> Malformed(ev.dataUrl))
    ensures ev.Loaded? && r.Rejected? ==> r.reason == ErrorWithMessage(InvalidFileFormat)
    ensures r.NeverSettles? <==>
              ev.Loaded? && !Malformed(ev.dataUrl) && ':' !in ev.dataUrl[..IndexOf(ev.dataUrl, ',')]
    ensures r.Resolved? ==> ev.Loaded? && PayloadOf(ev.dataUrl, r.file.data) && r.file.data != ""
  {
    match ev
    case ReadFailed => Rejected(NonError)
    case Loaded(url) =>
      match SplitDataUrl(url)
      case None => Rejected(ErrorWithMessage(InvalidFileFormat))
      case Some(fields) =>
        match ColonChainMime(fields.header)
        case None => NeverSettles
        case Some(m) => Resolved(Base64File(fields.data, m))
  }

  /** The longest run right after the first `:` of the header that
      contains neither `:` nor `;`. */
  predicate ColonRun(h: string, m: string)
  {
    var i := IndexOf(h, ':');
    && 0 <= i
    && OccursAt(h, m, i + 1)
    && ':' !in m && ';' !in m
    && (i + 1 + |m| == |h| || h[i + 1 + |m|] == ':' || h[i + 1 + |m|] == ';')
  }

  /** What the colon chain extracts from a header that has a `:`. */
  lemma ColonChainMeaning(h: string)
    requires ':' in h
    ensures ColonRun(h, ColonChainMime(h).value)
  {
    CutTwice(h, IndexOf(h, ':'));
  }

  lemma CutTwice(h: string, i: nat)
    requires i < |h|
    ensures var m := Before(Before(h[i + 1..], ':'), ';');
            && OccursAt(h, m, i + 1) && ':' !in m && ';' !in m
            && (i + 1 + |m| == |h| || h[i + 1 + |m|] == ':' || h[i + 1 + |m|] == ';')
  {
    var piece := Before(h[i + 1..], ':');
    var m := Before(piece, ';');
    assert h[i + 1..][..|m|] == h[i + 1..i + 1 + |m|];
    if i + 1 + |m| < |h| {
      assert h[i + 1 + |m|] == h[i + 1..][|m|];
    }
  }

  /** The MIME type `fileToBase64` resolves with is the colon run of the
      header. */
  lemma FileMimeType(url: string)
    requires FileToBase64(Loaded(url)).Resolved?
    ensures ColonRun(url[..IndexOf(url, ',')], FileToBase64(Loaded(url)).file.mimeType)
  {
    var h := SplitDataUrl(url).value.header;
    assert FileToBase64(Loaded(url)).file.mimeType == ColonChainMime(h).value;
    ColonChainMeaning(h);
  }

  // ---------------------------------------------------------------------
  // How the two parsers relate.
  // ---------------------------------------------------------------------

  /** The `onload` step rejects with "Invalid file format" exactly where
      the decoder throws "Invalid data URL format", and where both succeed
      they return the same payload. */
  lemma ParsersShareTheSplit(url: string)
    ensures FileToBase64(Loaded(url)).Rejected? <==> DataUrlToBase64File(url).Failure?
    ensures FileToBase64(Loaded(url)).Resolved? ==>
              DataUrlToBase64File(url).Success?
              && FileToBase64(Loaded(url)).file.data == DataUrlToBase64File(url).value.data
  {
  }

  /** Anything after a second comma is dropped by the decoder. */
  lemma DecodeDropsAfterSecondComma(header: string, data: string, tail: string)
    requires ',' !in header && ',' !in data
    ensures DataUrlToBase64File(header + "," + data + "," + tail)
            == DataUrlToBase64File(header + "," + data)
  {
    var long := header + "," + data + "," + tail;
    var short := header + "," + data;
    assert long == header + [','] + (data + "," + tail);
    assert short == header + [','] + data;
    BeforeConcat(header, ',', data);
    BeforeConcat(header, ',', data + "," + tail);
    BeforeConcat(data, ',', tail);
    if header != "" && data != "" {
      SplitDataUrlOf(header, data);
      SplitDataUrlOf(header, data + "," + tail);
    } else {
      assert Malformed(short) && Malformed(long);
    }
  }

  /** The URL a `FileReader` produces for a file of MIME type `m` with a
      base64 payload `d`. */
  function ReaderDataUrl(m: string, d: string): string
  {
    "data:" + m + ";base64," + d
  }

  /** The header of a reader-style URL and where its MIME type sits. */
  lemma ReaderHeader(m: string, d: string)
    requires ';' !in m && ',' !in m
    ensures var header := "data:" + m + ";base64";
            && ',' !in header
            && ReaderDataUrl(m, d) == header + [','] + d
            && IndexOf(header, ':') == 4
            && OccursAt(header, m, 5)
            && header[5 + |m|] == ';'
  {
    var header := "data:" + m + ";base64";
    assert ',' !in "data:" && ',' !in ";base64";
    assert header[..4] == "data";
    IndexOfUnique(header, ':', 4);
    assert header[5..5 + |m|] == m;
  }

  /** Both parsers split a reader-style URL into its header and payload. */
  lemma ReaderFields(m: string, d: string)
    requires ';' !in m && ',' !in m
    requires d != "" && ',' !in d
    ensures SplitDataUrl(ReaderDataUrl(m, d)) == Some(Fields("data:" + m + ";base64", d))
  {
    ReaderHeader(m, d);
    SplitDataUrlOf("data:" + m + ";base64", d);
  }

  /** The regular expression finds `m` in a reader-style header. */
  lemma ReaderHeaderRegex(m: string)
    requires ';' !in m && ',' !in m && NoLineTerminators(m)
    ensures MatchFrom("data:" + m + ";base64", 0) == Some(m)
  {
    var header := "data:" + m + ";base64";
    var q := 5 + |m|;
    ReaderHeader(m, "");
    forall j | 0 <= j < 4
      ensures header[j] != ':'
    {
      assert header[j] == header[..4][j];
    }
    MatchFromSkipsToColon(header, 0, 4);
    forall j | 4 < j < q
      ensures header[j] != ';' && !IsLineTerminator(header[j])
    {
      assert header[j] == m[j - 5];
    }
    RegexSemicolonAfterColon(header, 4, q);
    assert header[5..q] == m;
  }

  /** The colon chain finds `m` in a reader-style header when `m` has no
      `:`. */
  lemma ReaderHeaderColonChain(m: string)
    requires ';' !in m && ',' !in m && ':' !in m
    ensures ColonChainMime("data:" + m + ";base64") == Some(m)
  {
    var header := "data:" + m + ";base64";
    ReaderHeader(m, "");
    var piece := Before(header[5..], ':');
    var fm := Before(piece, ';');
    assert header[5..][..|m|] == m;
    assert header[5..][|m|] == ';';
    assert OccursAt(header[5..], fm, 0) && OccursAt(header[5..], m, 0);
    DelimitedRunUnique(header[5..], 0, fm, m, ';');
  }

  /** Round trip: the decoder recovers the MIME type and payload of a
      reader-style data URL whose MIME type has no `;`, `,` or line
      terminator and whose payload is non-empty and comma-free. */
  lemma DecodeRoundTrip(m: string, d: string)
    requires ';' !in m && ',' !in m && NoLineTerminators(m)
    requires d != "" && ',' !in d
    ensures DataUrlToBase64File(ReaderDataUrl(m, d)) == Success(Base64File(d, m))
  {
    ReaderFields(m, d);
    ReaderHeaderRegex(m);
  }

  /** On the same reader-style URL, `fileToBase64` agrees with the decoder
      as long as the MIME type also has no `:`. */
  lemma FileRoundTrip(m: string, d: string)
    requires ';' !in m && ',' !in m && ':' !in m && NoLineTerminators(m)
    requires d != "" && ',' !in d
    ensures FileToBase64(Loaded(ReaderDataUrl(m, d))) == Resolved(Base64File(d, m))
    ensures DataUrlToBase64File(ReaderDataUrl(m, d)) == Success(Base64File(d, m))
  {
    DecodeRoundTrip(m, d);
    ReaderFields(m, d);
    ReaderHeaderColonChain(m);
  }

  /** Where both parsers find a MIME type, the one of `fileToBase64` is a
      prefix of the decoder's: it also stops at a second `:`. */
  lemma FileMimeIsPrefixOfDecoderMime(url: string)
    requires FileToBase64(Loaded(url)).Resolved?
    requires NoLineTerminators(url[..IndexOf(url, ',')])
    requires ColonThenSemicolon(url[..IndexOf(url, ',')])
    ensures StartsWith(DataUrlToBase64File(url).value.mimeType, FileToBase64(Loaded(url)).file.mimeType)
  {
    DecodeMimeType(url);
    FileMimeType(url);
    ColonRunIsPrefix(url[..IndexOf(url, ',')],
                     FileToBase64(Loaded(url)).file.mimeType,
                     DataUrlToBase64File(url).value.mimeType);
  }

  /** The colon run stops no later than the first `;` after the colon. */
  lemma ColonRunIsPrefix(h: string, fm: string, dm: string)
    requires ColonRun(h, fm) && MimeSegment(h, dm)
    ensures StartsWith(dm, fm)
  {
    var i := IndexOf(h, ':');
    assert dm[..|fm|] == h[i + 1..i + 1 + |fm|];
  }

  /** The two parsers disagree on a header with two colons: for
      `a:b:c;x` the decoder yields `b:c` and `fileToBase64` yields `b`. */
  lemma SecondColonDivergence()
    ensures DataUrlToBase64File("a:b:c;x,QQ==") == Success(Base64File("QQ==", "b:c"))
    ensures FileToBase64(Loaded("a:b:c;x,QQ==")) == Resolved(Base64File("QQ==", "b"))
  {
    TwoColonFields();
    TwoColonRegex();
    TwoColonChain();
  }

  lemma TwoColonFields()
    ensures SplitDataUrl("a:b:c;x,QQ==") == Some(Fields("a:b:c;x", "QQ=="))
  {
    var h, d := "a:b:c;x", "QQ==";
    assert "a:b:c;x,QQ==" == h + [','] + d;
    assert ',' !in h && ',' !in d;
    SplitDataUrlOf(h, d);
  }

  lemma TwoColonRegex()
    ensures MatchFrom("a:b:c;x", 0) == Some("b:c")
  {
    var h := "a:b:c;x";
    assert LazyGroupEnd(h, 5) == Some(5);
    assert LazyGroupEnd(h, 4) == Some(5);
    assert LazyGroupEnd(h, 3) == Some(5);
    assert LazyGroupEnd(h, 2) == Some(5);
    assert h[2..5] == "b:c";
    assert MatchAt(h, 1) == Some("b:c");
    assert MatchFrom(h, 1) == Some("b:c");
  }

  lemma TwoColonChain()
    ensures ColonChainMime("a:b:c;x") == Some("b")
  {
    var h := "a:b:c;x";
    IndexOfUnique(h, ':', 1);
    assert h[2..] == "b" + [':'] + "c;x";
    BeforeConcat("b", ':', "c;x");
  }
}

=== FILE: image_uploader.dfy ===
/** One image-upload slot: a drop zone and a hidden file input. The slot
    keeps an optional preview URL and a dragging flag; it accepts the first
    selected file when its type is an image type, hands it to the owner's
    callback and shows a fresh preview URL for it, revoking the URL it
    replaces. The slot owns its previews: its allocator's live URLs are
    exactly the preview it shows, and none once it unmounts. */
module ImageUploader {
  import opened JsValues
  import opened JsStrings
  import opened Browser

  datatype Slot = Slot(preview: Option<UrlId>, isDragging: bool, urls: ObjectUrls)

  /** A freshly mounted slot: no preview, not dragging, nothing allocated. */
  const Mounted := Slot(None, false, NoUrls)

  /** The slot holds exactly the URL it shows, and its allocator is sound. */
  predicate Owns(s: Slot)
  {
    Valid(s.urls) && s.urls.live.Keys == Held(s.preview)
  }

  const ImagePrefix := "image/"

  /** The file `files?.[0]` denotes: none for a null or empty list. */
  function FirstFile(files: Option<seq<File>>): (f: Option<File>)
    ensures f.Some? <==> files.Some? && |files.value| > 0
    ensures f.Some? ==> f.value == files.value[0]
  {
    if files.Some? && |files.value| > 0 then Some(files.value[0]) else None
  }

  /** Whether the file-change handler takes the selection. */
  predicate Accepts(files: Option<seq<File>>)
  {
    var f := FirstFile(files);
    f.Some? && StartsWith(f.value.mimeType, ImagePrefix)
  }

  /** The file-change handler: the new slot and the file passed to the
      owner's `onImageSelect` (none when the callback is not invoked). An
      accepted file replaces the preview; anything else changes nothing. */
  function HandleFileChange(s: Slot, files: Option<seq<File>>): (r: (Slot, Option<File>))
    ensures r.1.Some? <==> Accepts(files)
    ensures !Accepts(files) ==> r.0 == s
    ensures Accepts(files) ==>
      && r.1 == Some(files.value[0])
      && r.0.preview.Some?
      && r.0.urls.live == (s.urls.live - Held(s.preview))[r.0.preview.value := files.value[0]]
      && (Valid(s.urls) ==> r.0.preview.value !in s.urls.live)
      && r.0.preview.value >= s.urls.next
    ensures Valid(s.urls) ==> Valid(r.0.urls)
    ensures r.0.isDragging == s.isDragging
  {
    var f := FirstFile(files);
    if f.Some? && StartsWith(f.value.mimeType, ImagePrefix) then
      var (urls, id) := Replace(s.urls, s.preview, f.value);
      (s.(preview := Some(id), urls := urls), f)
    else (s, None)
  }

  /** `dragover`: the zone is highlighted. */
  function DragOver(s: Slot): (r: Slot)
    ensures r.isDragging
    ensures r.(isDragging := s.isDragging) == s
  {
    s.(isDragging := true)
  }

  /** `dragleave`: the highlight is removed. */
  function DragLeave(s: Slot): (r: Slot)
    ensures !r.isDragging
    ensures r.(isDragging := s.isDragging) == s
  {
    s.(isDragging := false)
  }

  /** `drop`: the highlight is removed, then the dropped files go through
      the file-change handler. */
  function Drop(s: Slot, files: Option<seq<File>>): (r: (Slot, Option<File>))
    ensures !r.0.isDragging
    ensures r.1.Some? <==> Accepts(files)
  {
    HandleFileChange(DragLeave(s), files)
  }

  /** A drop behaves as leaving the zone followed by choosing the same files
      through the input, so both routes accept the same selections. */
  lemma DropIsLeaveThenChoose(s: Slot, files: Option<seq<File>>)
    ensures Drop(s, files).0.preview == HandleFileChange(s, files).0.preview
    ensures Drop(s, files).0.urls == HandleFileChange(s, files).0.urls
    ensures Drop(s, files).1 == HandleFileChange(s, files).1
  {
  }

  /** The effect cleanup registered for the preview `shown`: revoke it if
      there is one. It runs when the preview changes (with the superseded
      value) and at unmount (with the current value). */
  function Cleanup(s: Slot, shown: Option<UrlId>): (r: Slot)
    ensures r.urls.live.Keys == s.urls.live.Keys - Held(shown)
    ensures forall id :: id in r.urls.live ==> r.urls.live[id] == s.urls.live[id]
    ensures r.urls.next == s.urls.next
    ensures r.preview == s.preview && r.isDragging == s.isDragging
  {
    s.(urls := Release(s.urls, shown))
  }

  /** The events a mounted slot receives. */
  datatype Event =
    | Choose(files: Option<seq<File>>)
    | Over
    | Leave
    | DropFiles(files: Option<seq<File>>)

  /** One event followed by the effect cleanup React runs when the preview
      changed: the superseded preview is revoked a second time. */
  function Step(s: Slot, e: Event): (r: Slot)
    ensures Owns(s) ==> Owns(r)
  {
    match e
    case Choose(files) => Settle(s, HandleFileChange(s, files).0)
    case Over => DragOver(s)
    case Leave => DragLeave(s)
    case DropFiles(files) => Settle(s, Drop(s, files).0)
  }

  /** Runs the cleanup of the previous render when the preview changed:
      the superseded preview is revoked and every other URL keeps its file. */
  function Settle(before: Slot, after: Slot): (r: Slot)
    ensures r.preview == after.preview && r.isDragging == after.isDragging
    ensures after.preview == before.preview ==> r == after
    ensures after.preview != before.preview ==>
      && r.urls.live.Keys == after.urls.live.Keys - Held(before.preview)
      && (forall id :: id in r.urls.live ==> r.urls.live[id] == after.urls.live[id])
      && r.urls.next == after.urls.next
  {
    if after.preview != before.preview then Cleanup(after, before.preview) else after
  }

  /** Events applied in order. */
  function Run(s: Slot, events: seq<Event>): (r: Slot)
    decreases |events|
  {
    if |events| == 0 then s else Run(Step(s, events[0]), events[1..])
  }

  /** The ownership invariant holds after any sequence of events from the
      mounted state. */
  lemma {:induction false} RunOwns(s: Slot, events: seq<Event>)
    requires Owns(s)
    ensures Owns(Run(s, events))
    decreases |events|
  {
    if |events| > 0 {
      RunOwns(Step(s, events[0]), events[1..]);
    }
  }

  /** The cleanup after a replacement is a no-op: the handler already
      revoked the superseded URL, and revoking it again is harmless. */
  lemma SecondRevokeHarmless(s: Slot, files: Option<seq<File>>)
    requires Owns(s) && Accepts(files)
    ensures Cleanup(HandleFileChange(s, files).0, s.preview) == HandleFileChange(s, files).0
  {
    var after := HandleFileChange(s, files).0;
    if s.preview.Some? {
      assert s.preview.value !in after.urls.live;
    }
  }

  /** Choosing an accepted file settles on exactly the handler's slot: the
      effect cleanup's revoke of the superseded preview finds it already
      revoked. */
  lemma ChooseSettles(s: Slot, files: Option<seq<File>>)
    requires Owns(s) && Accepts(files)
    ensures Step(s, Choose(files)) == HandleFileChange(s, files).0
  {
    SecondRevokeHarmless(s, files);
  }

  /** Unmounting: the cleanup revokes the current preview. */
  function Unmount(s: Slot): (r: ObjectUrls)
    ensures Owns(s) ==> r.live == map[]
  {
    Cleanup(s, s.preview).urls
  }

  /** After any run of events from a fresh mount, unmounting leaves no
      preview URL of the slot live. */
  lemma UnmountReleasesAll(events: seq<Event>)
    ensures Unmount(Run(Mounted, events)).live == map[]
  {
    RunOwns(Mounted, events);
  }

  /** `title.replace(/\s+/g, c)`: every maximal run of whitespace becomes
      one `c`. */
  function ReplaceWhitespaceRuns(s: string, c: char): (r: string)
    ensures !IsWhitespace(c) ==> forall k :: 0 <= k < |r| ==> !IsWhitespace(r[k])
    ensures |r| <= |s|
    decreases |s|
  {
    if |s| == 0 then ""
    else if IsWhitespace(s[0]) then
      var rest := TrimStart(s);
      [c] + ReplaceWhitespaceRuns(rest, c)
    else [s[0]] + ReplaceWhitespaceRuns(s[1..], c)
  }

  /** The `id` of the file input and the `htmlFor` of its label. */
  function InputId(title: string): (id: string)
    ensures StartsWith(id, "file-upload-")
    ensures forall k :: 12 <= k < |id| ==> !IsWhitespace(id[k])
  {
    "file-upload-" + ReplaceWhitespaceRuns(title, '-')
  }

  /** A title without whitespace is used unchanged. */
  lemma {:induction false} NoWhitespaceUnchanged(s: string, c: char)
    requires forall k :: 0 <= k < |s| ==> !IsWhitespace(s[k])
    ensures ReplaceWhitespaceRuns(s, c) == s
    decreases |s|
  {
    if |s| > 0 {
      NoWhitespaceUnchanged(s[1..], c);
      assert s == [s[0]] + s[1..];
    }
  }

  /** The replacement proceeds run by run: a whitespace-free word, then a
      non-empty whitespace run, then text that does not start with
      whitespace, turns into the word, one `c`, and the rest's
      replacement. */
  lemma {:induction false} RunByRun(word: string, run: string, rest: string, c: char)
    requires forall k :: 0 <= k < |word| ==> !IsWhitespace(word[k])
    requires |run| > 0 && AllWhitespace(run)
    requires rest == [] || !IsWhitespace(rest[0])
    ensures ReplaceWhitespaceRuns(word + run + rest, c)
         == word + [c] + ReplaceWhitespaceRuns(rest, c)
    decreases |word|
  {
    var s := word + run + rest;
    if |word| == 0 {
      assert s == run + rest;
      RunFirst(run, rest, c);
    } else {
      var tail := word[1..] + run + rest;
      assert s[0] == word[0] && s[1..] == tail;
      RunByRun(word[1..], run, rest, c);
      WordFirst(s, c);
      calc {
        ReplaceWhitespaceRuns(s, c);
        [word[0]] + ReplaceWhitespaceRuns(tail, c);
        [word[0]] + (word[1..] + [c] + ReplaceWhitespaceRuns(rest, c));
        { assert word == [word[0]] + word[1..]; }
        word + [c] + ReplaceWhitespaceRuns(rest, c);
      }
    }
  }

  /** A whitespace run in front becomes one `c`. */
  lemma RunFirst(run: string, rest: string, c: char)
    requires |run| > 0 && AllWhitespace(run)
    requires rest == [] || !IsWhitespace(rest[0])
    ensures ReplaceWhitespaceRuns(run + rest, c) == [c] + ReplaceWhitespaceRuns(rest, c)
  {
    assert IsWhitespace((run + rest)[0]);
    TrimStartRun(run, rest);
  }

  /** A non-whitespace character in front is kept. */
  lemma WordFirst(s: string, c: char)
    requires |s| > 0 && !IsWhitespace(s[0])
    ensures ReplaceWhitespaceRuns(s, c) == [s[0]] + ReplaceWhitespaceRuns(s[1..], c)
  {
  }

  /** Trimming a whitespace run off the front of `run + rest` gives `rest`
      when `rest` does not start with whitespace. */
  lemma {:induction false} TrimStartRun(run: string, rest: string)
    requires AllWhitespace(run)
    requires rest == [] || !IsWhitespace(rest[0])
    ensures TrimStart(run + rest) == rest
    decreases |run|
  {
    if |run| > 0 {
      TrimStartRun(run[1..], rest);
      assert (run + rest)[1..] == run[1..] + rest;
    }
  }

  /** A two-word title with one space between the words gets the words
      joined by `-`. */
  lemma TwoWordInputId(word: string, rest: string)
    requires forall k :: 0 <= k < |word| ==> !IsWhitespace(word[k])
    requires forall k :: 0 <= k < |rest| ==> !IsWhitespace(rest[k])
    ensures InputId(word + " " + rest) == "file-upload-" + word + "-" + rest
  {
    if rest != [] {
      assert !IsWhitespace(rest[0]);
    }
    NoWhitespaceUnchanged(rest, '-');
    RunByRun(word, " ", rest, '-');
  }

  /** The primary uploader's input id. */
  lemma PrimaryInputId()
    ensures InputId("Primary Photo") == "file-upload-Primary-Photo"
  {
    var word, rest := "Primary", "Photo";
    TwoWordInputId(word, rest);
    assert word + " " + rest == "Primary Photo";
    assert "file-upload-" + word + "-" + rest == "file-upload-Primary-Photo";
  }

  /** A title that does not start with whitespace keeps its first
      character right after the prefix. */
  lemma InputIdFirst(title: string)
    requires |title| > 0 && !IsWhitespace(title[0])
    ensures InputId(title)[12] == title[0]
  {
  }

  /** The two uploaders App renders get distinct input ids: they differ
      right after the common prefix. */
  lemma UploaderIdsDiffer()
    ensures InputId("Primary Photo") != InputId("Relative's Photo")
  {
    var primary, secondary := "Primary Photo", "Relative's Photo";
    InputIdFirst(primary);
    InputIdFirst(secondary);
    assert InputId(primary)[12] != InputId(secondary)[12];
  }
}

=== FILE: js_strings.dfy ===
/** The JavaScript string operations the client relies on, each with a
    contract that characterises it independently of how it is computed:
    `indexOf`, `split` with a one-character separator (and its inverse
    `join`), `includes`, `startsWith`, `trim`, `toLowerCase`, the `\s`
    character class and the decimal rendering of a non-negative integer. */
module JsStrings {

  /** `s.indexOf(x)`: the first position holding `x`, or -1. */
  function IndexOf<T(==)>(s: seq<T>, x: T): (i: int)
    ensures i == -1 <==> x !in s
    ensures i != -1 ==> 0 <= i < |s| && s[i] == x && x !in s[..i]
  {
    if |s| == 0 then -1
    else if s[0] == x then 0
    else
      var j := IndexOf(s[1..], x);
      assert s[1..][..if j < 0 then 0 else j] == s[1..if j < 0 then 1 else j + 1];
      if j < 0 then -1 else j + 1
  }

  /** Joins the parts with the separator between consecutive parts
      (`parts.join(sep)`). */
  function Join(parts: seq<string>, sep: char): string
  {
    if |parts| == 0 then ""
    else if |parts| == 1 then parts[0]
    else parts[0] + [sep] + Join(parts[1..], sep)
  }

  /** `s.split(sep)` for a one-character separator: the maximal
      separator-free pieces of `s`, in order. There is always at least one
      piece. */
  function Split(s: string, sep: char): (parts: seq<string>)
    ensures |parts| >= 1
    ensures forall k :: 0 <= k < |parts| ==> sep !in parts[k]
    decreases |s|
  {
    var i := IndexOf(s, sep);
    if i < 0 then [s] else [s[..i]] + Split(s[i + 1..], sep)
  }

  /** Joining the pieces of a split gives back the string. */
  lemma {:induction false} JoinSplit(s: string, sep: char)
    ensures Join(Split(s, sep), sep) == s
    decreases |s|
  {
    if sep in s {
      var i := IndexOf(s, sep);
      var rest := s[i + 1..];
      SplitCons(s, sep);
      JoinSplit(rest, sep);
      JoinCons(s[..i], Split(rest, sep), sep);
      assert s == s[..i] + [sep] + rest;
    }
  }

  /** A string with a separator splits into the text before the first
      separator followed by the pieces of the text after it. */
  lemma SplitCons(s: string, sep: char)
    requires sep in s
    ensures Split(s, sep) == [s[..IndexOf(s, sep)]] + Split(s[IndexOf(s, sep) + 1..], sep)
  {
  }

  /** Joining a part in front of at least one more part puts a separator
      between them. */
  lemma JoinCons(a: string, tail: seq<string>, sep: char)
    requires |tail| >= 1
    ensures Join([a] + tail, sep) == a + [sep] + Join(tail, sep)
  {
    assert ([a] + tail)[1..] == tail;
  }

  /** Split is the inverse of Join on separator-free parts. */
  lemma {:induction false} SplitJoin(parts: seq<string>, sep: char)
    requires |parts| >= 1
    requires forall k :: 0 <= k < |parts| ==> sep !in parts[k]
    ensures Split(Join(parts, sep), sep) == parts
    decreases |parts|
  {
    if |parts| == 1 {
      assert Join(parts, sep) == parts[0];
    } else {
      var s := Join(parts, sep);
      var tail := Join(parts[1..], sep);
      assert s == parts[0] + [sep] + tail;
      assert sep !in parts[0];
      assert s[|parts[0]|] == sep;
      assert s[..|parts[0]|] == parts[0];
      assert IndexOf(s, sep) == |parts[0]|;
      assert s[|parts[0]| + 1..] == tail;
      SplitJoin(parts[1..], sep);
    }
  }

  /** The text of `s` before its first `c`; all of `s` when there is none. */
  function Before(s: string, c: char): (r: string)
    ensures |r| <= |s| && r == s[..|r|] && c !in r
    ensures |r| == |s| || s[|r|] == c
  {
    if c in s then s[..IndexOf(s, c)] else s
  }

  /** The first occurrence is the one with no earlier occurrence. */
  lemma IndexOfUnique<T>(s: seq<T>, x: T, i: int)
    requires 0 <= i < |s| && s[i] == x && x !in s[..i]
    ensures IndexOf(s, x) == i
  {
  }

  /** In `a + [c] + b` with `c` not in `a`, the first `c` is the one
      after `a`. */
  lemma BeforeConcat(a: string, c: char, b: string)
    requires c !in a
    ensures IndexOf(a + [c] + b, c) == |a|
    ensures Before(a + [c] + b, c) == a
    ensures (a + [c] + b)[|a| + 1..] == b
  {
    var s := a + [c] + b;
    assert s[..|a|] == a;
    IndexOfUnique(s, c, |a|);
  }

  /** Two runs starting at the same place, both free of `c` and both ended
      by `c` or by the end of `s`, are the same run. */
  lemma DelimitedRunUnique(s: string, start: int, a: string, b: string, c: char)
    requires OccursAt(s, a, start) && OccursAt(s, b, start)
    requires c !in a && c !in b
    requires start + |a| == |s| || s[start + |a|] == c
    requires start + |b| == |s| || s[start + |b|] == c
    ensures a == b
  {
    assert a == s[start..start + |a|];
  }

  /** The first two pieces of a split: the text before the first
      separator, and the text between the first and the second. */
  lemma SplitPieces(s: string, sep: char)
    ensures Split(s, sep)[0] == Before(s, sep)
    ensures sep !in s <==> |Split(s, sep)| == 1
    ensures sep in s ==> Split(s, sep)[1] == Before(s[IndexOf(s, sep) + 1..], sep)
  {
    if sep in s {
      var rest := s[IndexOf(s, sep) + 1..];
      assert Split(rest, sep)[0] == Before(rest, sep);
    }
  }

  /** `s[k..k+|pat|] == pat`. */
  predicate OccursAt<T(==)>(s: seq<T>, pat: seq<T>, k: int)
  {
    0 <= k && k + |pat| <= |s| && s[k..k + |pat|] == pat
  }

  /** `s.includes(pat)`. */
  predicate Includes<T(==)>(s: seq<T>, pat: seq<T>)
  {
    exists k | 0 <= k <= |s| - |pat| :: OccursAt(s, pat, k)
  }

  /** `s.startsWith(pat)`. */
  predicate StartsWith<T(==)>(s: seq<T>, pat: seq<T>)
  {
    |pat| <= |s| && s[..|pat|] == pat
  }

  /** The line terminators of ECMAScript: LF, CR, LINE SEPARATOR and
      PARAGRAPH SEPARATOR. The regular-expression `.` matches every other
      character. */
  predicate IsLineTerminator(c: char)
  {
    c == '\n' || c == '\r' || c as int == 0x2028 || c as int == 0x2029
  }

  /** The characters `\s` matches and `trim` removes: ECMAScript WhiteSpace
      (tab, vertical tab, form feed, space, no-break space, the byte-order
      mark and the Unicode space separators) plus the line terminators. */
  predicate IsWhitespace(c: char)
  {
    || c == '\t' || c as int == 0x0B || c as int == 0x0C || c == ' '
    || c as int == 0xA0 || c as int == 0xFEFF || c as int == 0x1680
    || (0x2000 <= c as int <= 0x200A)
    || c as int == 0x202F || c as int == 0x205F || c as int == 0x3000
    || IsLineTerminator(c)
  }

  predicate AllWhitespace(s: string)
  {
    forall k :: 0 <= k < |s| ==> IsWhitespace(s[k])
  }

  /** `s.trimStart()`: the suffix left after the longest whitespace prefix. */
  function TrimStart(s: string): (r: string)
    ensures |r| <= |s| && r == s[|s| - |r|..]
    ensures AllWhitespace(s[..|s| - |r|])
    ensures r == [] || !IsWhitespace(r[0])
  {
    if |s| > 0 && IsWhitespace(s[0]) then
      var r := TrimStart(s[1..]);
      assert s[1..][..|s[1..]| - |r|] == s[1..|s| - |r|];
      r
    else s
  }

  /** `s.trimEnd()`: the prefix left after the longest whitespace suffix. */
  function TrimEnd(s: string): (r: string)
    ensures |r| <= |s| && r == s[..|r|]
    ensures AllWhitespace(s[|r|..])
    ensures r == [] || !IsWhitespace(r[|r| - 1])
  {
    if |s| > 0 && IsWhitespace(s[|s| - 1]) then
      var init := s[..|s| - 1];
      var r := TrimEnd(init);
      assert r == s[..|r|] by {
        assert init[..|r|] == s[..|r|];
      }
      assert AllWhitespace(s[|r|..]) by {
        assert s[|r|..] == init[|r|..] + [s[|s| - 1]];
      }
      r
    else s
  }

  /** `s.trim()`: a contiguous piece of `s` with whitespace only outside it,
      empty exactly when `s` is all whitespace. */
  function Trim(s: string): (r: string)
    ensures r == [] <==> AllWhitespace(s)
    ensures r != [] ==> !IsWhitespace(r[0]) && !IsWhitespace(r[|r| - 1])
    ensures exists a :: OccursAt(s, r, a) && AllWhitespace(s[..a]) && AllWhitespace(s[a + |r|..])
  {
    var t := TrimStart(s);
    var r := TrimEnd(t);
    TrimPieces(s, t, r);
    r
  }

  /** Cutting a whitespace prefix and then a whitespace suffix leaves a
      piece of `s` with whitespace on both sides, empty exactly when `s` is
      all whitespace. */
  lemma TrimPieces(s: string, t: string, r: string)
    requires |t| <= |s| && t == s[|s| - |t|..] && AllWhitespace(s[..|s| - |t|])
    requires t == [] || !IsWhitespace(t[0])
    requires |r| <= |t| && r == t[..|r|] && AllWhitespace(t[|r|..])
    ensures r == [] <==> AllWhitespace(s)
    ensures var a := |s| - |t|;
      OccursAt(s, r, a) && AllWhitespace(s[..a]) && AllWhitespace(s[a + |r|..])
  {
    var a := |s| - |t|;
    assert s[a..a + |r|] == t[..|r|];
    assert s[a + |r|..] == t[|r|..];
    if r == [] {
      assert s[..a] == s;
    } else {
      assert !IsWhitespace(s[a]);
    }
  }

  /** ASCII upper-case letters map to lower case, every other character
      is kept. */
  function LowerChar(c: char): char
  {
    if 'A' <= c <= 'Z' then (c as int - 'A' as int + 'a' as int) as char else c
  }

  /** `s.toLowerCase()` for ASCII letters. */
  function ToLowerCase(s: string): (r: string)
    ensures |r| == |s|
    ensures forall k :: 0 <= k < |s| ==> r[k] == LowerChar(s[k])
  {
    seq(|s|, k requires 0 <= k < |s| => LowerChar(s[k]))
  }

  predicate IsDigit(c: char)
  {
    '0' <= c <= '9'
  }

  /** The value of a string of decimal digits. */
  function DecimalValue(s: string): nat
    requires forall k :: 0 <= k < |s| ==> IsDigit(s[k])
  {
    if |s| == 0 then 0
    else
      assert IsDigit(s[|s| - 1]);
      DecimalValue(s[..|s| - 1]) * 10 + (s[|s| - 1] as int - '0' as int)
  }

  /** `String(n)` for a non-negative integer below 10^21: its decimal digits
      without leading zeros. */
  function NatToDecimal(n: nat): (s: string)
    ensures |s| >= 1
    ensures forall k :: 0 <= k < |s| ==> IsDigit(s[k])
    ensures s[0] == '0' ==> n == 0 && s == "0"
    ensures DecimalValue(s) == n
  {
    var d := ('0' as int + n % 10) as char;
    if n < 10 then [d]
    else
      var prefix := NatToDecimal(n / 10);
      assert (prefix + [d])[..|prefix|] == prefix;
      prefix + [d]
  }
}

=== FILE: js_values.dfy ===
/** The few JavaScript values the client's logic inspects: a nullable value,
    a thrown value (an `Error` carries a message, anything else does not),
    and the truthiness test applied to strings. */
module JsValues {

  /** `T | null` (or `undefined`). */
  datatype Option<+T> = None | Some(value: T)

  /** A value caught by a `catch` clause or passed to `reject`. Only an
      instance of `Error` has a `message` the client reads. */
  datatype Thrown = ErrorWithMessage(message: string) | NonError

  /** A computation that either returns a value or throws. */
  datatype Result<+T> = Success(value: T) | Failure(error: Thrown)

  /** `err instanceof Error ? err.message : fallback`, the expression every
      `catch` block of the client uses to build its error text. */
  function MessageOr(err: Thrown, fallback: string): (m: string)
    ensures err.ErrorWithMessage? ==> m == err.message
    ensures err.NonError? ==> m == fallback
  {
    match err
    case ErrorWithMessage(msg) => msg
    case NonError => fallback
  }

  /** A nullable string used in a boolean position: `null` and `''` are falsy. */
  predicate Truthy(s: Option<string>)
  {
    s.Some? && s.value != ""
  }
}

=== FILE: loader.dfy ===
/** The loading overlay: a fixed list of seven messages, shown one at a
    time; every tick of the 2500 ms interval replaces the message with its
    successor in the list, wrapping around. The interval itself is modelled
    as an explicit tick event. */
module Loader {
  import opened JsStrings

  const Messages: seq<string> := [
    "Traveling back in time...",
    "Dusting off old photographs...",
    "Adding vibrant colors to memories...",
    "Reuniting family members...",
    "The AI is carefully restoring details...",
    "Crafting your new memory...",
    "This can take a moment, thank you for your patience."
  ]

  /** The message shown when the overlay mounts. */
  const InitialMessage: string := Messages[0]

  /** `list[(list.indexOf(prev) + 1) % list.length]` for any non-empty list.
      The left operand of `%` is never negative (`indexOf` is at least -1),
      so JavaScript's remainder and Dafny's agree here. */
  function Successor(list: seq<string>, prev: string): (next: string)
    requires |list| > 0
    ensures next in list
    ensures prev !in list ==> next == list[0]
  {
    list[(IndexOf(list, prev) + 1) % |list|]
  }

  /** The interval callback's update of the overlay's message. */
  function Next(prev: string): (next: string)
    ensures next in Messages
    ensures prev !in Messages ==> next == InitialMessage
  {
    Successor(Messages, prev)
  }

  predicate Distinct(list: seq<string>)
  {
    forall j, k :: 0 <= j < k < |list| ==> list[j] != list[k]
  }

  /** No message appears twice, so `indexOf` finds each at its own place. */
  lemma MessagesDistinct()
    ensures Distinct(Messages)
  {
  }

  /** One step around a cycle of `len` positions. */
  function NextPosition(len: nat, k: nat): (j: nat)
    requires k < len
    ensures j < len
    ensures j == 0 <==> k == len - 1
  {
    if k + 1 == len then 0 else k + 1
  }

  /** In a list without repeats, the successor of the message at position k
      is the message one step further round the cycle. */
  lemma SuccessorAt(list: seq<string>, k: nat)
    requires k < |list| && Distinct(list)
    ensures Successor(list, list[k]) == list[NextPosition(|list|, k)]
  {
    assert list[k] !in list[..k];
    IndexOfUnique(list, list[k], k);
    if k + 1 < |list| {
      ModBelow(k + 1, |list|);
    } else {
      ModSelf(|list|);
    }
  }

  lemma ModBelow(x: int, n: int)
    requires 0 <= x < n
    ensures x % n == x
  {
  }

  lemma ModSelf(n: int)
    requires 0 < n
    ensures n % n == 0
  {
  }

  /** The message after `n` ticks of the successor function over `list`,
      starting from `m`. */
  function Ticks(list: seq<string>, m: string, n: nat): (r: string)
    requires |list| > 0
    ensures n > 0 ==> r in list
  {
    if n == 0 then m else Successor(list, Ticks(list, m, n - 1))
  }

  /** The position reached after `n` steps from position `k`. */
  function Cycle(len: nat, k: nat, n: nat): (j: nat)
    requires k < len
    ensures j < len
  {
    if n == 0 then k else NextPosition(len, Cycle(len, k, n - 1))
  }

  /** n ticks from the message at position k reach the message at the
      position n steps further on. */
  lemma {:induction false} TicksFromIndex(list: seq<string>, k: nat, n: nat)
    requires k < |list| && Distinct(list)
    ensures Ticks(list, list[k], n) == list[Cycle(|list|, k, n)]
  {
    if n > 0 {
      TicksFromIndex(list, k, n - 1);
      SuccessorAt(list, Cycle(|list|, k, n - 1));
    }
  }

  /** On the seven messages, n steps from position k reach (k + n) mod 7. */
  lemma {:induction false} CycleOfSeven(k: nat, n: nat)
    requires k < 7
    ensures Cycle(7, k, n) == (k + n) % 7
  {
    if n > 0 {
      CycleOfSeven(k, n - 1);
    }
  }

  /** In a list of seven distinct entries, n ticks from entry k reach
      entry (k + n) mod 7. */
  lemma {:induction false} TicksAroundSeven(list: seq<string>, k: nat, n: nat)
    requires |list| == 7 && Distinct(list) && k < 7
    ensures Ticks(list, list[k], n) == list[(k + n) % 7]
  {
    TicksFromIndex(list, k, n);
    CycleOfSeven(k, n);
  }

  /** The successor of each message is the next one in the list, and the
      last wraps to the first. */
  lemma NextFollowsList(k: nat)
    requires k < |Messages|
    ensures Next(Messages[k]) == Messages[(k + 1) % |Messages|]
  {
    MessagesDistinct();
    SuccessorAt(Messages, k);
  }

  /** After n ticks from any message, the overlay shows the message n
      places further round the list. Since the overlay mounts showing
      `InitialMessage`, the first message, it shows message n mod 7 after
      n ticks (the case k = 0). */
  lemma {:induction false} TicksAround(k: nat, n: nat)
    requires k < |Messages|
    ensures Ticks(Messages, Messages[k], n) == Messages[(k + n) % |Messages|]
  {
    MessagesDistinct();
    TicksAroundSeven(Messages, k, n);
  }

  /** |Messages| ticks return to the starting message. */
  lemma {:induction false} FullCycle(k: nat)
    requires k < |Messages|
    ensures Ticks(Messages, Messages[k], |Messages|) == Messages[k]
  {
    MessagesDistinct();
    TicksAroundSeven(Messages, k, 7);
    WrapSeven(k);
  }

  lemma WrapSeven(k: nat)
    requires k < 7
    ensures (k + 7) % 7 == k
  {
  }
}

=== FILE: result_display.dfy ===
/** The result screen's own logic: the refine form, whose submit guard
    forwards a non-blank instruction to the owner and clears the field, and
    the download link, which offers the restored data URL under a file name
    built from the current time. */
module ResultDisplay {
  import opened JsValues
  import opened JsStrings

  /** The refine form's text field starts empty. */
  const InitialTunePrompt: string := ""

  /** `tunePrompt.trim() && !isLoading`: the instruction is not blank and no
      request is running. */
  predicate Forwards(tunePrompt: string, isLoading: bool)
  {
    Trim(tunePrompt) != "" && !isLoading
  }

  /** The form's submit handler: the new field text and the instruction
      passed to `onTune`, if any. The instruction is passed exactly as
      typed, untrimmed. */
  function Submit(tunePrompt: string, isLoading: bool): (r: (string, Option<string>))
    ensures r.1.Some? <==> !AllWhitespace(tunePrompt) && !isLoading
    ensures r.1.Some? ==> r.1.value == tunePrompt && r.0 == ""
    ensures r.1.None? ==> r.0 == tunePrompt
  {
    if Forwards(tunePrompt, isLoading) then ("", Some(tunePrompt)) else (tunePrompt, None)
  }

  /** Submitting again right after a forwarding submit forwards nothing:
      the cleared field is blank. */
  lemma NoDoubleSubmit(tunePrompt: string, isLoading: bool)
    requires !AllWhitespace(tunePrompt) && !isLoading
    ensures Submit(tunePrompt, isLoading).1.Some?
    ensures Submit(Submit(tunePrompt, isLoading).0, isLoading).1.None?
  {
  }

  /** The freshly mounted form forwards nothing and keeps its empty field. */
  lemma MountedFormForwardsNothing(isLoading: bool)
    ensures Submit(InitialTunePrompt, isLoading) == (InitialTunePrompt, None)
  {
    assert AllWhitespace(InitialTunePrompt);
  }

  /** A blocked submit is idempotent: repeating it changes nothing. */
  lemma BlockedSubmitStable(tunePrompt: string, isLoading: bool)
    requires Submit(tunePrompt, isLoading).1.None?
    ensures Submit(Submit(tunePrompt, isLoading).0, isLoading) == Submit(tunePrompt, isLoading)
  {
  }

  /** What the result screen renders from its inputs. */
  datatype View = View(
    textareaDisabled: bool,
    submitDisabled: bool,
    downloadHref: string,
    downloadName: string)

  const NamePrefix := "restored-memory-"
  const NameSuffix := ".png"

  /** `restored-memory-${Date.now()}.png`, the current time being `now`
      milliseconds. */
  function DownloadName(now: nat): (name: string)
    ensures StartsWith(name, NamePrefix)
    ensures |name| > |NamePrefix| + |NameSuffix|
    ensures name[|name| - |NameSuffix|..] == NameSuffix
  {
    NamePrefix + NatToDecimal(now) + NameSuffix
  }

  /** The digits between the prefix and the suffix. */
  function Stamp(name: string): string
    requires |name| >= |NamePrefix| + |NameSuffix|
  {
    name[|NamePrefix|..|name| - |NameSuffix|]
  }

  /** The time can be read back from the file name: the digits between the
      prefix and the suffix are the decimal rendering of `now`. Distinct
      times give distinct names. */
  lemma {:induction false} DownloadNameStamp(now: nat, later: nat)
    ensures Stamp(DownloadName(now)) == NatToDecimal(now)
    ensures DecimalValue(Stamp(DownloadName(now))) == now
    ensures now != later ==> DownloadName(now) != DownloadName(later)
  {
    var d := NatToDecimal(now);
    assert Stamp(DownloadName(now)) == d by {
      assert DownloadName(now) == NamePrefix + d + NameSuffix;
    }
    var e := NatToDecimal(later);
    assert Stamp(DownloadName(later)) == e by {
      assert DownloadName(later) == NamePrefix + e + NameSuffix;
    }
  }

  function Render(restoredImage: string, tunePrompt: string, isLoading: bool, now: nat): (v: View)
    ensures v.textareaDisabled <==> isLoading
    ensures v.submitDisabled <==> AllWhitespace(tunePrompt) || isLoading
    ensures v.downloadHref == restoredImage
    ensures v.downloadName == DownloadName(now)
  {
    View(isLoading, Trim(tunePrompt) == "" || isLoading, restoredImage, DownloadName(now))
  }

  /** The submit button is enabled exactly when submitting would forward
      the instruction. */
  lemma SubmitEnabledIffForwards(restoredImage: string, tunePrompt: string, isLoading: bool, now: nat)
    ensures !Render(restoredImage, tunePrompt, isLoading, now).submitDisabled
        <==> Submit(tunePrompt, isLoading).1.Some?
  {
  }
}
